=== FILE: README.md ===
# todotui backend in Dafny

A model of the persistence-backed data model of todotui, a terminal note-taking
application. The backend has three layers:

- a **Todo** is a shared cell with a tri-state completion flag and a description;
- a **Note** is a shared cell with a backing path and an optional payload
  (title, creation stamp, todos); it can be saved to its file and loaded back;
- a **NotesWall** is the list of notes kept in one folder, one `.post` file per note.

The model is functional. A Rust handle (`Arc<RwLock<…>>`) becomes an id into a
`Heap` (`store.dfy`). Cloning a handle copies the id, so a write through one
handle is seen through all of its clones. Every operation takes the heap, and
where relevant the file system, and returns new ones. The file system
(`fs.dfy`) is a map from paths to bytes. It also keeps the order in which a
directory listing reports files, the set of directories, and the set of paths
the process may not access. Errors are values of `Base.Error`:

- `EmptyNote` is "Note is empty";
- `FailedSerialization` is "Failed to serialize";
- `FailedRemove` is "Failed to remove";
- `DirUnreadable` is the listing error of `init`.

Files, one module each:

- `base.dfy`: `Option`, `Result` (with `Result::and`), `Ordering`, bytes and errors.
- `seqs.dfy`: first-match search and removal at an index.
- `text.dfy`: string ordering and substring search.
- `paths.dfy`: paths as component sequences, path ordering, `set_extension`.
- `records.dfy`: the plain contents of todos and notes.
- `codec.dfy`: the file format and its round trip.
- `store.dfy`: the heap of shared cells.
- `todo.dfy`: `Todo`.
- `note.dfy`: `Note`.
- `fs.dfy`: the file system.
- `wall.dfy`: `NotesWall`.

The file format follows the layout postcard gives `InternalNote`: fields in
declaration order, LEB128 varint lengths, one tag byte for `Option`, and one
byte for `bool`. The decoder reads a note from the front of the bytes and
ignores the rest, as `postcard::from_bytes` does. `decode(encode(n)) == n` is
proved (`Codec.RoundTrip`), not assumed.

## Model

| member | source | states |
|---|---|---|
| Todos.SetDone | src/backend/mod.rs:58-63 | Writing the flag makes the getter return the new value. The description, every other todo cell and every note are unchanged. |
| Todos.SetDescription | src/backend/mod.rs:71-76 | Writing the description makes the getter return the new text. The flag, every other todo cell and every note are unchanged. |
| Todos.SharedWrite | src/backend/mod.rs:29 | A description written through one handle is read back through every clone of it. Handles to other cells still read their old value. |
| Todos.CompareDone | src/backend/mod.rs:22-26 | The derived order on the flag is `None < Some(false) < Some(true)`. It is `Equal` exactly for equal flags. |
| Todos.EqIffCmpEqual | src/backend/mod.rs:31-49 | Two todo handles are equal exactly when they compare `Equal`. That happens exactly when flag and description agree, whether or not the handles share a cell. |
| Todos.CmpIsTotalOrder | src/backend/mod.rs:39-49 | Todo ordering (flag first, then description) reverses when the operands are swapped, and `Less` is transitive. |
| Text.Contains | src/backend/mod.rs:305-308 | The substring test is true exactly when the pattern occurs at some position of the name, not only at its end. |
| Paths.ComparePathsEqual | src/backend/mod.rs:144-148 | Component-wise path comparison is `Equal` exactly for equal paths. |
| Paths.WithExtension | src/backend/mod.rs:338 | `set_extension` keeps the file stem and appends a dot and the extension. With an empty extension, only the stem is left. |
| Paths.WithExtensionReplaces | src/backend/mod.rs:338 | For a file name with a non-empty stem and an extension without dots, `set_extension` keeps the stem, and the text after the new name's last dot is exactly the extension. |
| Notes.IdentityIsPath | src/backend/mod.rs:138-181 | Note handles are equal exactly when their paths are equal, whatever their payloads hold. Ordering agrees with this equality and reverses on swap. Equal notes give the hasher the same input. |
| Notes.DataEqIgnoresTodos | src/backend/mod.rs:97-101 | Payload equality looks at title and creation stamp only. Changing the todos never changes it. |
| Notes.SetPath | src/backend/mod.rs:184-189 | Only the note's path changes. Its payload and every other cell are unchanged. |
| Notes.Title | src/backend/mod.rs:203-229 | The title never fails. A non-empty stored title is returned. An empty one falls back to the creation stamp. An unloaded note gives "". |
| Notes.SetTitle | src/backend/mod.rs:191-201 | On an unloaded note it fails with `EmptyNote`. Otherwise the title reads back as the new text, or as the creation stamp when the text is empty. Stamp, todos, path and every other cell are unchanged. |
| Notes.TodosOf | src/backend/mod.rs:256-261 | Returns no handles for an unloaded note. A loaded note returns exactly the handles its payload holds, in order. Every handle is a live cell. |
| Notes.CreateTodo | src/backend/mod.rs:231-242 | On an unloaded note it fails with `EmptyNote`. Otherwise it adds one fresh todo `(None, "")` at the end: the new list is the old list plus the returned handle. The stored payload is otherwise unchanged, stored title and stamp included, and so are the path, existing todos and other notes. |
| Notes.RemoveFirstEqualSpec | src/backend/mod.rs:115-120 | If no todo has the same contents, the list is unchanged. Otherwise exactly the first such todo is removed, and the others keep their order. |
| Notes.RemoveTodo | src/backend/mod.rs:244-254 | On an unloaded note it fails with `EmptyNote`. Otherwise it removes the first todo equal in contents and keeps the rest in order; with no equal todo it changes nothing. Only the todo list of the payload changes: the stored title and stamp, the todo cells, the path and other notes are unchanged. |
| Notes.Load | src/backend/mod.rs:263-277 | Returns true exactly when the file reads and decodes. On true the payload becomes the decoded note, whose todo handles are distinct and point to cells that did not exist before. On false the heap is unchanged. |
| Notes.Save | src/backend/mod.rs:279-290 | An unloaded note succeeds and writes nothing. A loaded note succeeds exactly when its path is writable; failure is `FailedSerialization`. On success only the file at the note's path changes, and that file decodes to the payload. |
| Notes.SaveWritesTodoFields | src/backend/mod.rs:52-69 | A save of a loaded note to a writable path succeeds. For each of its todos, in order, the file holds the flag `done` reports and the text `description` reports through that todo's handle. |
| Notes.SaveThenLoad | src/backend/mod.rs:263-290 | Saving a loaded note, then loading any note with the same path, succeeds. The loaded note has the same title, creation stamp and todo contents. |
| Codec.RoundTrip | src/backend/mod.rs:263-290 | Decoding the bytes written for a note gives that note back. |
| Codec.EncodeInjective | src/backend/mod.rs:279-290 | Different notes are written as different bytes. |
| Fs.Write | src/backend/mod.rs:286 | A write succeeds exactly when the path is writable. It replaces the whole file. Directories, access rights and the listing invariant are kept. |
| Fs.Remove | src/backend/mod.rs:354 | Deletion succeeds exactly when the file exists and is accessible. It removes only that file. |
| Fs.Read | src/backend/mod.rs:265 | Reading fails exactly when the file is missing or access is denied. Otherwise it returns the file's bytes. |
| Fs.ListDir | src/backend/mod.rs:302 | Listing fails exactly when the folder is not a directory or access to it is denied. Otherwise it gives every file directly inside the folder, once each. An empty folder gives an empty listing. |
| Walls.Discovered | src/backend/mod.rs:303-316 | Reference definition of what `init` keeps: exactly the listed names that contain ".post" and whose files load, in listing order, with no repeats. |
| Walls.Scan | src/backend/mod.rs:302-317 | Every note the scan keeps is a fresh, live cell. Every existing note and todo cell is unchanged. |
| Walls.ScanFinds | src/backend/mod.rs:302-317 | The scan yields one note per discovered name, in the same order. Each note sits at `folder/name` and holds what its file decodes to. |
| Walls.InitFinds | src/backend/mod.rs:301-319 | Every discoverable name in a listable folder yields a note from `init`, at `folder/name`, holding what that file decodes to. |
| Walls.Init | src/backend/mod.rs:301-319 | Fails with `DirUnreadable` exactly when the folder cannot be listed: it is missing, not a directory, or denied. Otherwise the wall holds exactly the loadable ".post" files in listing order, with their decoded contents, and satisfies the wall invariant. Its notes are fresh cells, and every existing note and todo cell is unchanged. |
| Walls.InitEmptyFolder | src/backend/mod.rs:400-402 | `init` over an accessible folder with no files succeeds with no notes. |
| Walls.StampFileName | src/backend/mod.rs:15-16 | A creation stamp has no dot, so its file name is the stamp plus ".post", which `init`'s filter accepts. |
| Walls.CreateNote | src/backend/mod.rs:325-342 | Appends exactly one fresh note at `folder/<created>.post`. The note is loaded, with an empty title, the stamp and no todos, so its title reads as the stamp. Existing cells are unchanged and nothing is written. |
| Walls.CreateNoteKeepsInv | src/backend/mod.rs:325-342 | When the new path is not already used in the wall, creating a note keeps the invariant: notes live and loaded, inside the folder, with distinct paths. |
| Walls.RemoveNote | src/backend/mod.rs:344-356 | With no note of equal path it succeeds and changes nothing. Otherwise it drops the first such note and then deletes its file. If the deletion fails, the result is `FailedRemove` and the note stays dropped. |
| Walls.RemoveNoteKeepsInv | src/backend/mod.rs:344-356 | Removing a note keeps the wall invariant. |
| Walls.RemoveAppended | src/backend/mod.rs:344-356 | Removing a note just appended to a wall, whose path no earlier note has, gives back the wall as it was. It succeeds exactly when the note's file exists and is accessible, and then deletes it. |
| Walls.CreateThenRemove | src/backend/mod.rs:325-356 | Creating a note and removing it at once gives back the wall as it was. The call fails exactly when no accessible file exists at the new path, as for a note never saved. |
| Walls.SaveLoop | src/backend/mod.rs:358-365 | Every note is attempted. An earlier error is kept. Otherwise the loop fails exactly when some loaded note's path is not writable. A loaded note with a writable path that no later note shares leaves a file that decodes to its contents. Files at paths no note writes are unchanged. |
| Walls.SaveLoopWrites | src/backend/mod.rs:358-365 | When paths are distinct, every loaded note with a writable path leaves a file that decodes to its contents. |
| Walls.SaveAll | src/backend/mod.rs:358-365 | Fails exactly when some note's path is not writable. Every note with a writable path leaves a file that decodes to its payload. No other file changes. |
| Walls.SavedNoteIsFound | src/backend/mod.rs:279-319 | After a loaded note with a ".post" file name is saved, `init` of any wall over its accessible folder finds a note with the same path and the same contents. |
| Walls.CreatedNoteSurvivesRestart | src/backend/mod.rs:325-342 | When `folder/<created>.post` is writable and the folder is accessible, a note made by `create_note` saves successfully. `init` of a fresh wall then finds it with the same path, an empty title, its stamp and no todos, so its title reads as the stamp. |

## Left out

- Lock poisoning and the "Poisoned mutex" errors are not modelled. The model has no threads, so the Todo getters and setters cannot fail.
- The clock (`Utc::now` with `DATE_FORMAT`) is a parameter of `Walls.CreateNote`. It must have the shape the format produces: digits, `_` and `:`.
- Two notes created with the same stamp would share a path; the source does not prevent this. `Walls.CreateNoteKeepsInv` and `Walls.CreateThenRemove` require the new path to be unused.
- The placeholder payload `Note::default()` gives a note during `init` has an empty creation stamp in the model rather than a clock reading. A successful load overwrites it, and a failed load drops the note, so it is never observed.
- postcard's exact bytes are not modelled. Characters are written as code-point varints instead of UTF-8. Varints have no width limit. Any number of trailing bytes is accepted.
- Todos.Done, Todos.Description: plain reads of the shared cell. What they report is tied to the file a save writes by `Notes.SaveWritesTodoFields`, and to the setters by `Todos.SetDone`, `Todos.SetDescription` and `Todos.SharedWrite`.
- Paths.WithExtensionReplaces: stated only for a non-empty stem and an extension without dots, the case `create_note` uses. For other names, `Paths.WithExtension` still gives the exact result.
- Notes.Save: serialisation never fails in the model; only the write can fail.
- Walls.SaveAll: the result is stated only for walls satisfying the wall invariant, whose notes have distinct paths. When two notes share a path, the later save decides the file; `Walls.SaveLoop` states that case, but `Walls.SaveAll` does not.
- Walls.SaveLoopWrites: requires distinct paths for the same reason. It is the distinct-path corollary of `Walls.SaveLoop`.
- File system failures are reduced to four conditions: a missing file, a path in `denied` (a file that cannot be read, written or removed, or a folder that cannot be listed), a folder that is not a directory, and a path whose parent is not a directory. Other I/O errors are not modelled.
- The order in which `read_dir` reports files depends on the platform. The model fixes one order, the order of creation. Every property is stated relative to the listing order, so none depends on that choice.
- Error entries in a directory listing are not modelled. Neither are file names that are not UTF-8 (where the source panics) or sub-directories whose names contain ".post".
- Paths are sequences of normal components. Root, `.` and `..` components, and the order of component kinds in `Path::cmp`, are not modelled.
- The derived `PartialOrd` of `InternalNote` and its `Hash` are not modelled; no operation uses them.
- `Walls.GetNotes` returns the wall's handles; a clone of a handle shares its cell, so no separate property is stated.
- `derive_builder` and the serde derives are not modelled. So are the terminal UI, the event loop and the command-line setup (`src/components`, `src/model`, `src/main.rs`, `src/lib.rs`).

=== FILE: base.dfy ===
/** Shared vocabulary of the notes backend: optional values, results,
    the comparison outcome of `Ord`, bytes and the error kinds. */
module Base {

  /** One byte of a file's contents. */
  type byte = b: int | 0 <= b < 256

  type Bytes = seq<byte>

  datatype Option<+T> = None | Some(value: T)

  datatype Result<+T, +E> = Ok(value: T) | Err(error: E) {

    /** `Result::and`: the first error wins, otherwise the second result. */
    function And<U>(other: Result<U, E>): Result<U, E>
    {
      match this
      case Ok(_) => other
      case Err(e) => Err(e)
    }
  }

  /** `std::cmp::Ordering`. */
  datatype Ordering = Less | Equal | Greater {

    function Reverse(): Ordering
    {
      match this
      case Less => Greater
      case Equal => Equal
      case Greater => Less
    }
  }

  /** The failures the backend reports: "Note is empty", "Failed to
      serialize" (also the context of a failed write), "Failed to remove",
      and the operating system's error from listing the notes folder. */
  datatype Error = EmptyNote | FailedSerialization | FailedRemove | DirUnreadable
}

=== FILE: codec.dfy ===
/** The on-disk encoding of a note. It follows the layout postcard gives
    `InternalNote`: fields in declaration order, lengths as unsigned LEB128
    varints, an `Option` as a tag byte 0 or 1 before its value, a `bool` as
    the byte 0 or 1. Characters are written as code-point varints.
    Decoding reads a note from the front of the bytes and ignores whatever
    follows it, as `postcard::from_bytes` does. */
module Codec {
  import opened Base
  import opened Records

  /* ---------- natural numbers ---------- */

  /** Unsigned LEB128: seven bits per byte, low group first, the high bit
      set on every byte but the last. */
  function EncodeNat(n: nat): (r: Bytes)
    ensures 0 < |r|
    ensures r[|r| - 1] < 128
    ensures forall i | 0 <= i < |r| - 1 :: r[i] >= 128
    decreases n
  {
    if n < 128 then [n] else [n % 128 + 128] + EncodeNat(n / 128)
  }

  /** Reads one varint from the front; yields the value and the rest. */
  function DecodeNat(s: Bytes): (r: Option<(nat, Bytes)>)
    ensures r.Some? ==> |r.value.1| < |s| && r.value.1 == s[|s| - |r.value.1|..]
    decreases |s|
  {
    if |s| == 0 then None
    else if s[0] < 128 then Some((s[0], s[1..]))
    else match DecodeNat(s[1..])
      case None => None
      case Some((m, rest)) => Some((s[0] - 128 + 128 * m, rest))
  }

  lemma {:induction false} NatRoundTrip(n: nat, rest: Bytes)
    ensures DecodeNat(EncodeNat(n) + rest) == Some((n, rest))
    decreases n
  {
    if n >= 128 {
      NatRoundTrip(n / 128, rest);
      assert EncodeNat(n) + rest == [n % 128 + 128] + (EncodeNat(n / 128) + rest);
    }
  }

  /* ---------- characters and strings ---------- */

  /** The numbers that are Unicode scalar values, i.e. Dafny `char`s. */
  predicate IsScalar(n: int)
  {
    0 <= n < 0xD800 || 0xE000 <= n < 0x11_0000
  }

  function EncodeChar(c: char): Bytes
  {
    EncodeNat(c as int)
  }

  /** Reads one character; fails on a number that is no scalar value. */
  function DecodeChar(s: Bytes): (r: Option<(char, Bytes)>)
    ensures r.Some? ==> |r.value.1| < |s|
  {
    match DecodeNat(s)
    case None => None
    case Some((n, rest)) => if IsScalar(n) then Some((n as char, rest)) else None
  }

  function EncodeChars(s: string): Bytes
  {
    if |s| == 0 then [] else EncodeChar(s[0]) + EncodeChars(s[1..])
  }

  /** Reads exactly `k` characters. */
  function DecodeChars(k: nat, s: Bytes): (r: Option<(string, Bytes)>)
    ensures r.Some? ==> |r.value.0| == k && |r.value.1| <= |s|
  {
    if k == 0 then Some(([], s))
    else match DecodeChar(s)
      case None => None
      case Some((c, rest)) =>
        match DecodeChars(k - 1, rest)
        case None => None
        case Some((cs, rest')) => Some(([c] + cs, rest'))
  }

  /** A string is its length in characters, then its characters. */
  function EncodeString(s: string): Bytes
  {
    EncodeNat(|s|) + EncodeChars(s)
  }

  function DecodeString(s: Bytes): (r: Option<(string, Bytes)>)
    ensures r.Some? ==> |r.value.1| < |s|
  {
    match DecodeNat(s)
    case None => None
    case Some((k, rest)) => DecodeChars(k, rest)
  }

  lemma CharRoundTrip(c: char, rest: Bytes)
    ensures DecodeChar(EncodeChar(c) + rest) == Some((c, rest))
  {
    NatRoundTrip(c as int, rest);
    assert IsScalar(c as int);
  }

  /** One step of `DecodeChars`: a character, then `k` more. */
  lemma DecodeCharsStep(k: nat, s: Bytes, c: char, s': Bytes, cs: string, rest: Bytes)
    requires DecodeChar(s) == Some((c, s'))
    requires DecodeChars(k, s') == Some((cs, rest))
    ensures DecodeChars(k + 1, s) == Some(([c] + cs, rest))
  {
  }

  /** The inductive step of `CharsRoundTrip`. */
  lemma CharsRoundTripCons(c: char, cs: string, rest: Bytes)
    requires DecodeChars(|cs|, EncodeChars(cs) + rest) == Some((cs, rest))
    ensures DecodeChars(|cs| + 1, EncodeChars([c] + cs) + rest) == Some(([c] + cs, rest))
  {
    var head, tail := EncodeChar(c), EncodeChars(cs) + rest;
    assert ([c] + cs)[1..] == cs;
    assert EncodeChars([c] + cs) + rest == head + tail;
    CharRoundTrip(c, tail);
    DecodeCharsStep(|cs|, head + tail, c, tail, cs, rest);
  }

  lemma {:induction false} CharsRoundTrip(s: string, rest: Bytes)
    ensures DecodeChars(|s|, EncodeChars(s) + rest) == Some((s, rest))
  {
    if |s| > 0 {
      CharsRoundTrip(s[1..], rest);
      CharsRoundTripCons(s[0], s[1..], rest);
      assert [s[0]] + s[1..] == s;
    } else {
      assert EncodeChars(s) + rest == rest;
    }
  }

  lemma StringRoundTrip(s: string, rest: Bytes)
    ensures DecodeString(EncodeString(s) + rest) == Some((s, rest))
  {
    assert EncodeString(s) + rest == EncodeNat(|s|) + (EncodeChars(s) + rest);
    NatRoundTrip(|s|, EncodeChars(s) + rest);
    CharsRoundTrip(s, rest);
  }

  /* ---------- todos ---------- */

  /** `Option<bool>`: tag 0 for `None`; tag 1 then 0 or 1 for `Some`. */
  function EncodeDone(d: Option<bool>): Bytes
  {
    match d
    case None => [0]
    case Some(b) => [1, if b then 1 else 0]
  }

  function DecodeDone(s: Bytes): (r: Option<(Option<bool>, Bytes)>)
    ensures r.Some? ==> |r.value.1| < |s|
  {
    if |s| == 0 then None
    else if s[0] == 0 then Some((None, s[1..]))
    else if s[0] == 1 && |s| >= 2 && s[1] <= 1 then Some((Some(s[1] == 1), s[2..]))
    else None
  }

  function EncodeTodo(t: TodoData): Bytes
  {
    EncodeDone(t.done) + EncodeString(t.description)
  }

  function DecodeTodo(s: Bytes): (r: Option<(TodoData, Bytes)>)
    ensures r.Some? ==> |r.value.1| < |s|
  {
    match DecodeDone(s)
    case None => None
    case Some((d, rest)) =>
      match DecodeString(rest)
      case None => None
      case Some((desc, rest')) => Some((TodoData(d, desc), rest'))
  }

  lemma DoneRoundTrip(d: Option<bool>, rest: Bytes)
    ensures DecodeDone(EncodeDone(d) + rest) == Some((d, rest))
  {
    var s := EncodeDone(d) + rest;
    if d.Some? {
      assert s[2..] == rest;
    } else {
      assert s[1..] == rest;
    }
  }

  lemma TodoRoundTrip(t: TodoData, rest: Bytes)
    ensures DecodeTodo(EncodeTodo(t) + rest) == Some((t, rest))
  {
    var tail := EncodeString(t.description) + rest;
    assert EncodeTodo(t) + rest == EncodeDone(t.done) + tail;
    DoneRoundTrip(t.done, tail);
    StringRoundTrip(t.description, rest);
  }

  function EncodeTodoItems(ts: seq<TodoData>): Bytes
  {
    if |ts| == 0 then [] else EncodeTodo(ts[0]) + EncodeTodoItems(ts[1..])
  }

  /** Reads exactly `k` todos. */
  function DecodeTodoItems(k: nat, s: Bytes): (r: Option<(seq<TodoData>, Bytes)>)
    ensures r.Some? ==> |r.value.0| == k && |r.value.1| <= |s|
  {
    if k == 0 then Some(([], s))
    else match DecodeTodo(s)
      case None => None
      case Some((t, rest)) =>
        match DecodeTodoItems(k - 1, rest)
        case None => None
        case Some((ts, rest')) => Some(([t] + ts, rest'))
  }

  /** One step of `DecodeTodoItems`: a todo, then `k` more. */
  lemma DecodeTodoItemsStep(k: nat, s: Bytes, t: TodoData, s': Bytes, ts: seq<TodoData>, rest: Bytes)
    requires DecodeTodo(s) == Some((t, s'))
    requires DecodeTodoItems(k, s') == Some((ts, rest))
    ensures DecodeTodoItems(k + 1, s) == Some(([t] + ts, rest))
  {
  }

  lemma ConcatAssoc(a: Bytes, b: Bytes, c: Bytes)
    ensures (a + b) + c == a + (b + c)
  {
  }

  /** The bytes of a non-empty todo list start with those of its first todo. */
  lemma EncodeTodoItemsFirst(ts: seq<TodoData>, rest: Bytes)
    requires |ts| > 0
    ensures EncodeTodoItems(ts) + rest == EncodeTodo(ts[0]) + (EncodeTodoItems(ts[1..]) + rest)
  {
    ConcatAssoc(EncodeTodo(ts[0]), EncodeTodoItems(ts[1..]), rest);
  }

  /** The inductive step of `TodoItemsRoundTrip`: the first todo decoded from
      the front of `s`, the others from what follows it. */
  lemma TodoItemsRoundTripCons(ts: seq<TodoData>, s: Bytes, tail: Bytes, rest: Bytes)
    requires |ts| > 0
    requires DecodeTodo(s) == Some((ts[0], tail))
    requires DecodeTodoItems(|ts| - 1, tail) == Some((ts[1..], rest))
    ensures DecodeTodoItems(|ts|, s) == Some((ts, rest))
  {
    DecodeTodoItemsStep(|ts| - 1, s, ts[0], tail, ts[1..], rest);
    assert [ts[0]] + ts[1..] == ts;
  }

  lemma {:induction false} TodoItemsRoundTrip(ts: seq<TodoData>, rest: Bytes)
    ensures DecodeTodoItems(|ts|, EncodeTodoItems(ts) + rest) == Some((ts, rest))
  {
    if |ts| > 0 {
      var tail := EncodeTodoItems(ts[1..]) + rest;
      TodoItemsRoundTrip(ts[1..], rest);
      TodoRoundTrip(ts[0], tail);
      EncodeTodoItemsFirst(ts, rest);
      TodoItemsRoundTripCons(ts, EncodeTodoItems(ts) + rest, tail, rest);
    } else {
      assert EncodeTodoItems(ts) + rest == rest;
    }
  }

  /* ---------- notes ---------- */

  /** The bytes `Note::save` writes: title, creation stamp, then the todo
      list as its length followed by the todos. */
  function Encode(n: NoteRecord): Bytes
  {
    EncodeString(n.title) + EncodeString(n.created) + EncodeNat(|n.todos|) + EncodeTodoItems(n.todos)
  }

  /** Reads a note from the front of `s`, with the bytes after it. */
  function DecodeWithRest(s: Bytes): (r: Option<(NoteRecord, Bytes)>)
    ensures r.Some? ==> |r.value.1| < |s|
  {
    match DecodeString(s)
    case None => None
    case Some((title, s1)) =>
      match DecodeString(s1)
      case None => None
      case Some((created, s2)) =>
        match DecodeNat(s2)
        case None => None
        case Some((k, s3)) =>
          match DecodeTodoItems(k, s3)
          case None => None
          case Some((todos, s4)) => Some((NoteRecord(title, created, todos), s4))
  }

  /** `postcard::from_bytes::<InternalNote>`: fails on malformed bytes. */
  function Decode(s: Bytes): Option<NoteRecord>
  {
    match DecodeWithRest(s)
    case None => None
    case Some((n, _)) => Some(n)
  }

  /** `DecodeWithRest` chains its four field decoders. */
  lemma DecodeWithRestSteps(s: Bytes, n: NoteRecord, s1: Bytes, s2: Bytes, s3: Bytes, rest: Bytes)
    requires DecodeString(s) == Some((n.title, s1))
    requires DecodeString(s1) == Some((n.created, s2))
    requires DecodeNat(s2) == Some((|n.todos|, s3))
    requires DecodeTodoItems(|n.todos|, s3) == Some((n.todos, rest))
    ensures DecodeWithRest(s) == Some((n, rest))
  {
  }

  /** Decoding what was encoded gives the note back, whatever follows it. */
  lemma RoundTripWithRest(n: NoteRecord, rest: Bytes)
    ensures DecodeWithRest(Encode(n) + rest) == Some((n, rest))
  {
    var s3 := EncodeTodoItems(n.todos) + rest;
    var s2 := EncodeNat(|n.todos|) + s3;
    var s1 := EncodeString(n.created) + s2;
    var s := EncodeString(n.title) + s1;
    assert Encode(n) + rest == s by {
      var a, b, c, d := EncodeString(n.title), EncodeString(n.created), EncodeNat(|n.todos|), EncodeTodoItems(n.todos);
      ConcatAssoc(a + b + c, d, rest);
      ConcatAssoc(a + b, c, d + rest);
      ConcatAssoc(a, b, c + (d + rest));
    }
    StringRoundTrip(n.title, s1);
    StringRoundTrip(n.created, s2);
    NatRoundTrip(|n.todos|, s3);
    TodoItemsRoundTrip(n.todos, rest);
    DecodeWithRestSteps(s, n, s1, s2, s3, rest);
  }

  /** The file of a saved note decodes to exactly the saved note. */
  lemma RoundTrip(n: NoteRecord)
    ensures Decode(Encode(n)) == Some(n)
  {
    RoundTripWithRest(n, []);
    assert Encode(n) + [] == Encode(n);
  }

  /** Distinct notes are written as distinct bytes. */
  lemma EncodeInjective(a: NoteRecord, b: NoteRecord)
    requires Encode(a) == Encode(b)
    ensures a == b
  {
    RoundTrip(a);
    RoundTrip(b);
  }
}

=== FILE: fs.dfy ===
/** The part of the file system the backend touches: regular files with
    their bytes, the order in which a directory listing reports them, the
    existing directories, and the paths the process may not access. */
module Fs {
  import opened Base
  import opened Paths
  import opened Seqs

  /** `entries` lists every file once, in the order a directory listing
      reports them. The order `read_dir` uses depends on the platform; the
      model fixes one choice, creation order, where a new file joins the
      end of the listing. No property below depends on that choice. */
  datatype FileSystem = FileSystem(files: map<Path, Bytes>, entries: seq<Path>, dirs: set<Path>, denied: set<Path>) {

    ghost predicate Valid()
    {
      && Distinct(entries)
      && (forall i | 0 <= i < |entries| :: entries[i] in files)
      && (forall p | p in files :: p in entries)
      && (forall p | p in files :: p !in dirs)
    }
  }

  /** `std::fs::read`: fails on a missing or inaccessible file. */
  function Read(fs: FileSystem, p: Path): (r: Option<Bytes>)
    ensures r.Some? <==> p in fs.files && p !in fs.denied
    ensures r.Some? ==> r.value == fs.files[p]
  {
    if p in fs.files && p !in fs.denied then Some(fs.files[p]) else None
  }

  /** A write to `p` can succeed: its parent is a directory, `p` is not one,
      and access is not denied. */
  predicate Writable(fs: FileSystem, p: Path)
  {
    |p| > 0 && p[..|p| - 1] in fs.dirs && p !in fs.dirs && p !in fs.denied
  }

  /** `std::fs::write`: creates or truncates `p` and writes `data` in full. */
  function Write(fs: FileSystem, p: Path, data: Bytes): (r: Option<FileSystem>)
    ensures r.Some? <==> Writable(fs, p)
    ensures r.Some? ==> r.value.files == fs.files[p := data]
    ensures r.Some? ==> r.value.dirs == fs.dirs && r.value.denied == fs.denied
    ensures r.Some? && fs.Valid() ==> r.value.Valid()
  {
    if !Writable(fs, p) then None
    else
      var entries := if p in fs.files then fs.entries else fs.entries + [p];
      Some(fs.(files := fs.files[p := data], entries := entries))
  }

  /** `s` without the element `p`. */
  function Without(s: seq<Path>, p: Path): (r: seq<Path>)
    ensures forall i | 0 <= i < |r| :: r[i] in s && r[i] != p
    ensures forall q | q in s && q != p :: q in r
    ensures Distinct(s) ==> Distinct(r)
  {
    if |s| == 0 then []
    else
      var rest := Without(s[1..], p);
      if s[0] == p then rest
      else
        [s[0]] + rest
  }

  /** `std::fs::remove_file`: fails on a missing or inaccessible file. */
  function Remove(fs: FileSystem, p: Path): (r: Option<FileSystem>)
    ensures r.Some? <==> p in fs.files && p !in fs.denied
    ensures r.Some? ==> r.value.files == fs.files - {p}
    ensures r.Some? ==> r.value.dirs == fs.dirs && r.value.denied == fs.denied
    ensures r.Some? && fs.Valid() ==> r.value.Valid()
  {
    if p in fs.files && p !in fs.denied then
      Some(fs.(files := fs.files - {p}, entries := Without(fs.entries, p)))
    else None
  }

  /** The names of the entries directly inside `dir`, in listing order. */
  function Children(es: seq<Path>, dir: Path): (r: seq<string>)
    ensures forall i | 0 <= i < |r| :: dir + [r[i]] in es
    ensures forall e | e in es && InDir(e, dir) :: e[|dir|] in r
    ensures Distinct(es) ==> Distinct(r)
    ensures (forall e | e in es :: !InDir(e, dir)) ==> r == []
  {
    if |es| == 0 then []
    else
      var rest := Children(es[1..], dir);
      if InDir(es[0], dir) then
        var name := es[0][|dir|];
        assert es[0] == dir + [name];
        [name] + rest
      else rest
  }

  /** `std::fs::read_dir` reduced to the file names: fails unless `dir` is
      an accessible directory; otherwise every file directly inside it,
      once each. */
  function ListDir(fs: FileSystem, dir: Path): (r: Option<seq<string>>)
    ensures r.Some? <==> dir in fs.dirs && dir !in fs.denied
    ensures r.Some? && fs.Valid() ==> forall i | 0 <= i < |r.value| :: dir + [r.value[i]] in fs.files
    ensures r.Some? && fs.Valid() ==> forall p | p in fs.files && InDir(p, dir) :: p[|dir|] in r.value
    ensures r.Some? && fs.Valid() ==> Distinct(r.value)
    ensures r.Some? && fs.Valid() && (forall p | p in fs.files :: !InDir(p, dir)) ==> r.value == []
  {
    if dir in fs.dirs && dir !in fs.denied then Some(Children(fs.entries, dir)) else None
  }
}

=== FILE: note.dfy ===
/** `Note`: a shared handle to a backing path and an optional payload
    (title, creation stamp, todo handles), with its own load and save. */
module Notes {
  import opened Base
  import opened Paths
  import opened Records
  import opened Seqs
  import opened Store
  import Todos
  import Codec
  import Fs

  function PathOf(h: Heap, n: Note): Path
    requires h.HasNote(n)
  {
    h.notes[n.id].path
  }

  function Payload(h: Heap, n: Note): Option<NoteData>
    requires h.HasNote(n)
  {
    h.notes[n.id].note
  }

  /** The payload as it would be serialised, or `None` while unloaded. */
  function Snapshot(h: Heap, n: Note): Option<NoteRecord>
    requires h.Valid() && h.HasNote(n)
  {
    assert h.Closed(h.notes[n.id]);
    match Payload(h, n)
    case None => None
    case Some(d) => Some(Record(h, d))
  }

  /** Replaces the cell of `n`, keeping everything else. */
  function Update(h: Heap, n: Note, c: NoteCell): Heap
    requires h.HasNote(n)
  {
    h.(notes := h.notes[n.id := c])
  }

  /** `Note::set_path` (used only by the wall): moves the note to `p`. */
  function SetPath(h: Heap, n: Note, p: Path): (r: Heap)
    requires h.HasNote(n)
    ensures r.HasNote(n) && PathOf(r, n) == p && Payload(r, n) == Payload(h, n)
    ensures r.todos == h.todos && r.next == h.next && r.notes.Keys == h.notes.Keys
    ensures forall id | id in h.notes && id != n.id :: r.notes[id] == h.notes[id]
    ensures h.Valid() ==> r.Valid()
  {
    Update(h, n, h.notes[n.id].(path := p))
  }

  /* ---------- identity ---------- */

  /** `PartialEq for Note`: the two handles have the same path. */
  predicate Eq(h: Heap, a: Note, b: Note)
    requires h.HasNote(a) && h.HasNote(b)
  {
    PathOf(h, a) == PathOf(h, b)
  }

  /** `PartialOrd for Note`: the two paths, compared. */
  function Cmp(h: Heap, a: Note, b: Note): Ordering
    requires h.HasNote(a) && h.HasNote(b)
  {
    ComparePaths(PathOf(h, a), PathOf(h, b))
  }

  /** `Hash for Note`: what is fed to the hasher, the path alone. */
  function HashKey(h: Heap, n: Note): Path
    requires h.HasNote(n)
  {
    PathOf(h, n)
  }

  /** A note's identity is its path: handles are equal exactly when their
      paths are, whatever their payloads hold (loaded, unloaded or
      different); ordering agrees with equality, and equal notes hash
      alike. */
  lemma IdentityIsPath(h: Heap, a: Note, b: Note)
    requires h.HasNote(a) && h.HasNote(b)
    ensures Eq(h, a, b) <==> PathOf(h, a) == PathOf(h, b)
    ensures Eq(h, a, b) <==> Cmp(h, a, b) == Equal
    ensures Eq(h, a, b) ==> HashKey(h, a) == HashKey(h, b)
    ensures Cmp(h, b, a) == Cmp(h, a, b).Reverse()
  {
    ComparePathsEqual(PathOf(h, a), PathOf(h, b));
    ComparePathsReverse(PathOf(h, a), PathOf(h, b));
  }

  /** `PartialEq for InternalNote`: title and creation stamp; the todos are
      not compared. */
  predicate DataEq(a: NoteData, b: NoteData)
  {
    a.title == b.title && a.created == b.created
  }

  /** Payloads that differ only in their todos are equal. */
  lemma DataEqIgnoresTodos(a: NoteData, b: NoteData, ts: seq<Todo>)
    ensures DataEq(a, b) <==> DataEq(a, b.(todos := ts))
    ensures DataEq(a, a.(todos := ts))
  {
  }

  /* ---------- title ---------- */

  /** `Note::created` (private): the creation stamp, or "" while unloaded. */
  function Created(h: Heap, n: Note): string
    requires h.HasNote(n)
  {
    match Payload(h, n)
    case Some(d) => d.created
    case None => ""
  }

  /** `Note::title_internal` (private): the stored title, failing while unloaded. */
  function TitleInternal(h: Heap, n: Note): Result<string, Error>
    requires h.HasNote(n)
  {
    match Payload(h, n)
    case Some(d) => Ok(d.title)
    case None => Err(EmptyNote)
  }

  /** `Note::title`: never fails. A stored non-empty title is returned as
      is; an empty one falls back to the creation stamp; an unloaded note
      has the empty title. */
  function Title(h: Heap, n: Note): (r: string)
    requires h.HasNote(n)
    ensures Payload(h, n).None? ==> r == ""
    ensures Payload(h, n).Some? && Payload(h, n).value.title != "" ==> r == Payload(h, n).value.title
    ensures Payload(h, n).Some? && Payload(h, n).value.title == "" ==> r == Payload(h, n).value.created
  {
    match TitleInternal(h, n)
    case Ok(title) => if |title| == 0 then Created(h, n) else title
    case Err(_) => Created(h, n)
  }

  /** The title a note shows depends on its contents alone: the stored
      title, or the creation stamp when that is empty. */
  lemma TitleOfSnapshot(h: Heap, n: Note)
    requires h.Valid() && h.HasNote(n)
    requires Snapshot(h, n).Some?
    ensures var rec := Snapshot(h, n).value;
      Title(h, n) == if rec.title == "" then rec.created else rec.title
  {
  }

  /** `Note::set_title`: replaces the title only; fails with "Note is
      empty", changing nothing, while unloaded. */
  function SetTitle(h: Heap, n: Note, title: string): (r: Result<Heap, Error>)
    requires h.HasNote(n)
    ensures r.Err? <==> Payload(h, n).None?
    ensures r.Err? ==> r.error == EmptyNote
    ensures r.Ok? ==> r.value.HasNote(n) && Payload(r.value, n).Some?
    ensures r.Ok? ==> Title(r.value, n) == (if title == "" then Created(h, n) else title)
    ensures r.Ok? ==> Payload(r.value, n).value.title == title
    ensures r.Ok? ==> Created(r.value, n) == Created(h, n)
    ensures r.Ok? ==> Payload(r.value, n).value.todos == Payload(h, n).value.todos
    ensures r.Ok? ==> PathOf(r.value, n) == PathOf(h, n)
    ensures r.Ok? ==> r.value.todos == h.todos && r.value.next == h.next
    ensures r.Ok? ==> r.value.notes.Keys == h.notes.Keys
    ensures r.Ok? ==> forall id | id in h.notes && id != n.id :: r.value.notes[id] == h.notes[id]
    ensures r.Ok? && h.Valid() ==> r.value.Valid()
  {
    match Payload(h, n)
    case Some(d) => Ok(Update(h, n, h.notes[n.id].(note := Some(d.(title := title)))))
    case None => Err(EmptyNote)
  }

  /* ---------- todos ---------- */

  /** `Note::todos`: the todo handles in order (clones sharing the cells),
      or none while unloaded. */
  function TodosOf(h: Heap, n: Note): (r: seq<Todo>)
    requires h.HasNote(n)
    ensures Payload(h, n).None? ==> r == []
    ensures Payload(h, n).Some? ==> r == Payload(h, n).value.todos
    ensures h.Valid() ==> forall t | t in r :: h.HasTodo(t)
  {
    assert h.Valid() ==> h.Closed(h.notes[n.id]);
    match Payload(h, n)
    case Some(d) => d.todos
    case None => []
  }

  /** `Note::create_todo`: appends one default todo to the loaded payload and
      returns a handle sharing its cell; fails with "Note is empty",
      changing nothing, while unloaded. */
  function CreateTodo(h: Heap, n: Note): (r: Result<(Heap, Todo), Error>)
    requires h.Valid() && h.HasNote(n)
    ensures r.Err? <==> Payload(h, n).None?
    ensures r.Err? ==> r.error == EmptyNote
    ensures r.Ok? ==> r.value.0.Valid() && r.value.0.HasNote(n)
    ensures r.Ok? ==> r.value.1.id !in h.todos && r.value.0.HasTodo(r.value.1)
    ensures r.Ok? ==> Todos.Done(r.value.0, r.value.1) == None && Todos.Description(r.value.0, r.value.1) == ""
    ensures r.Ok? ==> TodosOf(r.value.0, n) == TodosOf(h, n) + [r.value.1]
    ensures r.Ok? ==> Title(r.value.0, n) == Title(h, n) && Created(r.value.0, n) == Created(h, n)
    ensures r.Ok? ==> Payload(r.value.0, n) == Some(Payload(h, n).value.(todos := TodosOf(r.value.0, n)))
    ensures r.Ok? ==> PathOf(r.value.0, n) == PathOf(h, n)
    ensures r.Ok? ==> forall id | id in h.todos :: id in r.value.0.todos && r.value.0.todos[id] == h.todos[id]
    ensures r.Ok? ==> r.value.0.notes.Keys == h.notes.Keys
    ensures r.Ok? ==> forall id | id in h.notes && id != n.id :: r.value.0.notes[id] == h.notes[id]
  {
    match Payload(h, n)
    case Some(d) =>
      var (h1, t) := NewTodo(h, DefaultTodo);
      var h2 := Update(h1, n, h.notes[n.id].(note := Some(d.(todos := d.todos + [t]))));
      assert h2.Valid() by {
        assert h.Closed(h.notes[n.id]);
      }
      Ok((h2, t))
    case None => Err(EmptyNote)
  }

  /** The test the backend's `remove_todo` applies: `x` holds the same
      contents as `t`. */
  predicate SameContents(h: Heap, t: Todo, x: Todo)
  {
    t.id in h.todos && x.id in h.todos && h.todos[x.id] == h.todos[t.id]
  }

  function MatchesContents(h: Heap, t: Todo): (r: Todo -> bool)
    ensures forall x :: r(x) == SameContents(h, t, x)
  {
    x => SameContents(h, t, x)
  }

  /** `InternalNote::remove_todo`: drops the first todo whose contents equal
      those of `t`; with no such todo, the list is unchanged. */
  function RemoveFirstEqual(h: Heap, ts: seq<Todo>, t: Todo): (r: seq<Todo>)
  {
    match FirstIndex(ts, MatchesContents(h, t))
    case None => ts
    case Some(i) => RemoveAt(ts, i)
  }

  /** Characterisation of `RemoveFirstEqual` by where the first match is. */
  lemma RemoveFirstEqualSpec(h: Heap, ts: seq<Todo>, t: Todo)
    requires h.HasTodo(t)
    requires forall x | x in ts :: h.HasTodo(x)
    ensures (forall i | 0 <= i < |ts| :: !Todos.Eq(h, ts[i], t)) ==> RemoveFirstEqual(h, ts, t) == ts
    ensures forall i | 0 <= i < |ts| && Todos.Eq(h, ts[i], t) && (forall j | 0 <= j < i :: !Todos.Eq(h, ts[j], t)) ::
              RemoveFirstEqual(h, ts, t) == ts[..i] + ts[i + 1..]
  {
    var p := MatchesContents(h, t);
    match FirstIndex(ts, p)
    case None =>
      forall i | 0 <= i < |ts|
        ensures !Todos.Eq(h, ts[i], t)
      {
        assert ts[i] in ts && !p(ts[i]);
      }
    case Some(k) =>
      forall i | 0 <= i < |ts| && Todos.Eq(h, ts[i], t) && (forall j | 0 <= j < i :: !Todos.Eq(h, ts[j], t))
        ensures RemoveFirstEqual(h, ts, t) == ts[..i] + ts[i + 1..]
      {
        assert ts[i] in ts && p(ts[i]);
        if k < i {
          assert Todos.Eq(h, ts[k], t);
        }
        assert k == i;
      }
  }

  /** `Note::remove_todo`: removes from the loaded payload the first todo
      equal in contents to `t`; succeeds without change when none is equal;
      fails with "Note is empty", changing nothing, while unloaded. */
  function RemoveTodo(h: Heap, n: Note, t: Todo): (r: Result<Heap, Error>)
    requires h.Valid() && h.HasNote(n) && h.HasTodo(t)
    ensures r.Err? <==> Payload(h, n).None?
    ensures r.Err? ==> r.error == EmptyNote
    ensures r.Ok? ==> r.value.Valid() && r.value.HasNote(n)
    ensures r.Ok? ==> r.value.todos == h.todos && r.value.next == h.next
    ensures r.Ok? ==> r.value.notes.Keys == h.notes.Keys
    ensures r.Ok? ==> forall id | id in h.notes && id != n.id :: r.value.notes[id] == h.notes[id]
    ensures r.Ok? ==> PathOf(r.value, n) == PathOf(h, n)
    ensures r.Ok? ==> Title(r.value, n) == Title(h, n) && Created(r.value, n) == Created(h, n)
    ensures r.Ok? ==> Payload(r.value, n) == Some(Payload(h, n).value.(todos := TodosOf(r.value, n)))
    ensures r.Ok? ==> var xs := TodosOf(h, n);
      (forall i | 0 <= i < |xs| :: !Todos.Eq(h, xs[i], t)) ==> TodosOf(r.value, n) == xs
    ensures r.Ok? ==> var xs := TodosOf(h, n);
      forall i | 0 <= i < |xs| && Todos.Eq(h, xs[i], t) && (forall j | 0 <= j < i :: !Todos.Eq(h, xs[j], t)) ::
        TodosOf(r.value, n) == xs[..i] + xs[i + 1..]
  {
    match Payload(h, n)
    case Some(d) =>
      assert h.Closed(h.notes[n.id]);
      RemoveFirstEqualSpec(h, d.todos, t);
      var ts := RemoveFirstEqual(h, d.todos, t);
      var h' := Update(h, n, h.notes[n.id].(note := Some(d.(todos := ts))));
      assert h'.Closed(h'.notes[n.id]);
      Ok(h')
    case None => Err(EmptyNote)
  }

  /* ---------- persistence ---------- */

  /** The note stored at `p`: present when the file can be read and its
      bytes decode. */
  function FileRecord(fs: Fs.FileSystem, p: Path): Option<NoteRecord>
  {
    match Fs.Read(fs, p)
    case None => None
    case Some(bytes) => Codec.Decode(bytes)
  }

  /** Installs a decoded payload into `n`, with fresh todo cells. */
  function Install(h: Heap, n: Note, rec: NoteRecord): (r: Heap)
    requires h.Valid() && h.HasNote(n)
    ensures r.Valid() && r.HasNote(n)
    ensures Snapshot(r, n) == Some(rec)
    ensures Payload(r, n).Some? && forall t | t in Payload(r, n).value.todos :: t.id !in h.todos
    ensures Payload(r, n).Some? && Distinct(Payload(r, n).value.todos)
    ensures PathOf(r, n) == PathOf(h, n)
    ensures r.notes.Keys == h.notes.Keys
    ensures forall id | id in h.notes && id != n.id :: r.notes[id] == h.notes[id]
    ensures forall id | id in h.todos :: id in r.todos && r.todos[id] == h.todos[id]
  {
    var (h1, ts) := NewTodos(h, rec.todos);
    var r := Update(h1, n, NoteCell(PathOf(h, n), Some(NoteData(rec.title, rec.created, ts))));
    assert r.Closed(r.notes[n.id]);
    assert Contents(r, ts) == rec.todos;
    r
  }

  /** `Note::load`: reads the file at the note's path and decodes it into the
      payload. True exactly when both the read and the decoding succeed;
      on false the heap is unchanged. */
  function Load(h: Heap, fs: Fs.FileSystem, n: Note): (r: (Heap, bool))
    requires h.Valid() && h.HasNote(n)
    ensures r.1 <==> FileRecord(fs, PathOf(h, n)).Some?
    ensures !r.1 ==> r.0 == h
    ensures r.0.Valid() && r.0.HasNote(n)
    ensures r.1 ==> Snapshot(r.0, n) == FileRecord(fs, PathOf(h, n))
    ensures r.1 ==> Payload(r.0, n).Some? && forall t | t in Payload(r.0, n).value.todos :: t.id !in h.todos
    ensures r.1 ==> Payload(r.0, n).Some? && Distinct(Payload(r.0, n).value.todos)
    ensures PathOf(r.0, n) == PathOf(h, n)
    ensures r.0.notes.Keys == h.notes.Keys
    ensures forall id | id in h.notes && id != n.id :: r.0.notes[id] == h.notes[id]
    ensures forall id | id in h.todos :: id in r.0.todos && r.0.todos[id] == h.todos[id]
  {
    match Fs.Read(fs, PathOf(h, n))
    case None => (h, false)
    case Some(bytes) =>
      match Codec.Decode(bytes)
      case None => (h, false)
      case Some(rec) => (Install(h, n, rec), true)
  }

  /** `Note::save`: an unloaded note succeeds without writing; otherwise the
      encoded payload (not the path) replaces the file at the note's path,
      and a failed write is reported as "Failed to serialize". What is
      written reads back as the payload. */
  function Save(h: Heap, fs: Fs.FileSystem, n: Note): (r: Result<Fs.FileSystem, Error>)
    requires h.Valid() && h.HasNote(n)
    ensures Payload(h, n).None? ==> r == Ok(fs)
    ensures Payload(h, n).Some? ==> (r.Ok? <==> Fs.Writable(fs, PathOf(h, n)))
    ensures r.Err? ==> r.error == FailedSerialization
    ensures r.Ok? && Payload(h, n).Some? ==> FileRecord(r.value, PathOf(h, n)) == Snapshot(h, n)
    ensures r.Ok? && Payload(h, n).Some? ==>
      r.value.files == fs.files[PathOf(h, n) := Codec.Encode(Snapshot(h, n).value)]
    ensures r.Ok? ==> r.value.dirs == fs.dirs && r.value.denied == fs.denied
    ensures r.Ok? && fs.Valid() ==> r.value.Valid()
  {
    match Snapshot(h, n)
    case None => Ok(fs)
    case Some(rec) =>
      match Fs.Write(fs, PathOf(h, n), Codec.Encode(rec))
      case None => Err(FailedSerialization)
      case Some(fs') =>
        Codec.RoundTrip(rec);
        Ok(fs')
  }

  /** A save writes, for each todo of the note in order, what `Todo::done`
      and `Todo::description` report through its handle at that moment. */
  lemma SaveWritesTodoFields(h: Heap, fs: Fs.FileSystem, n: Note)
    requires h.Valid() && h.HasNote(n) && Payload(h, n).Some?
    requires Fs.Writable(fs, PathOf(h, n))
    ensures Save(h, fs, n).Ok?
    ensures var ts, rec := TodosOf(h, n), FileRecord(Save(h, fs, n).value, PathOf(h, n));
      && rec.Some? && |rec.value.todos| == |ts|
      && forall i | 0 <= i < |ts| ::
           rec.value.todos[i] == TodoData(Todos.Done(h, ts[i]), Todos.Description(h, ts[i]))
  {
  }

  /** Saving a loaded note and then loading any note with the same path
      restores the title, the creation stamp and the todo contents. */
  lemma SaveThenLoad(h: Heap, fs: Fs.FileSystem, n: Note, m: Note)
    requires h.Valid() && h.HasNote(n) && h.HasNote(m)
    requires Payload(h, n).Some?
    requires Save(h, fs, n).Ok?
    requires PathOf(h, m) == PathOf(h, n)
    ensures Load(h, Save(h, fs, n).value, m).1
    ensures Snapshot(Load(h, Save(h, fs, n).value, m).0, m) == Snapshot(h, n)
    ensures Title(Load(h, Save(h, fs, n).value, m).0, m) == Title(h, n)
  {
  }
}

=== FILE: paths.dfy ===
/** `PathBuf` as a sequence of normal components. Rust compares paths
    component by component, so equality and ordering are those of the
    component sequence. */
module Paths {
  import opened Base
  import opened Text

  type Path = seq<string>

  /** `dir` is the parent directory of `p`. */
  predicate InDir(p: Path, dir: Path)
  {
    |p| == |dir| + 1 && p[..|dir|] == dir
  }

  /** A path inside `dir` is `dir` followed by its file name. */
  lemma InDirSplit(p: Path, dir: Path)
    requires InDir(p, dir)
    ensures p == dir + [p[|dir|]]
    ensures p[..|p| - 1] == dir
  {
    assert p == p[..|dir|] + [p[|dir|]];
  }

  /** `Path::partial_cmp`: lexicographic over the components. */
  function ComparePaths(a: Path, b: Path): Ordering
  {
    if |a| == 0 && |b| == 0 then Equal
    else if |a| == 0 then Less
    else if |b| == 0 then Greater
    else match CompareStrings(a[0], b[0])
      case Equal => ComparePaths(a[1..], b[1..])
      case other => other
  }

  /** The path comparison reports `Equal` exactly for equal paths. */
  lemma {:induction false} ComparePathsEqual(a: Path, b: Path)
    ensures ComparePaths(a, b) == Equal <==> a == b
  {
    if |a| > 0 && |b| > 0 {
      CompareStringsEqual(a[0], b[0]);
      if a[0] == b[0] {
        ComparePathsEqual(a[1..], b[1..]);
        assert a == [a[0]] + a[1..] && b == [b[0]] + b[1..];
      }
    }
  }

  /** Swapping the operands reverses the outcome. */
  lemma {:induction false} ComparePathsReverse(a: Path, b: Path)
    ensures ComparePaths(b, a) == ComparePaths(a, b).Reverse()
  {
    if |a| > 0 && |b| > 0 {
      CompareStringsReverse(a[0], b[0]);
      ComparePathsReverse(a[1..], b[1..]);
    }
  }

  /** `Path::file_stem` of a file name: the name up to its last dot, unless
      that dot is the name's first character or the name is "..". */
  function FileStem(name: string): (r: string)
    ensures r <= name
    ensures '.' !in name ==> r == name
  {
    if name == ".." then name
    else match LastIndexOf(name, '.')
      case None => name
      case Some(i) => if i == 0 then name else name[..i]
  }

  /** The file name `PathBuf::set_extension(ext)` leaves behind: the stem,
      then a dot and `ext` unless `ext` is empty. */
  function WithExtension(name: string, ext: string): (r: string)
    ensures |ext| == 0 ==> r == FileStem(name)
    ensures |ext| > 0 ==> |r| == |FileStem(name)| + 1 + |ext|
    ensures |ext| > 0 ==> r[..|FileStem(name)|] == FileStem(name) && r[|FileStem(name)|..] == "." + ext
    ensures |ext| > 0 ==> Contains(r, "." + ext)
  {
    var stem := FileStem(name);
    var r := if |ext| == 0 then stem else stem + "." + ext;
    assert |ext| > 0 ==> OccursAt(r, "." + ext, |stem|);
    r
  }

  /** What `set_extension` promises: with a non-empty stem and an extension
      without dots, the new name keeps the stem, its last dot is the one
      after the stem, and what follows that dot is the extension. */
  lemma WithExtensionReplaces(name: string, ext: string)
    requires |FileStem(name)| > 0
    requires |ext| > 0 && '.' !in ext
    ensures FileStem(WithExtension(name, ext)) == FileStem(name)
    ensures LastIndexOf(WithExtension(name, ext), '.') == Some(|FileStem(name)|)
    ensures WithExtension(name, ext)[|FileStem(name)| + 1..] == ext
  {
    var stem, r := FileStem(name), WithExtension(name, ext);
    assert r == stem + "." + ext;
    assert r[|stem|] == '.';
    assert forall j | |stem| < j < |r| :: r[j] == ext[j - |stem| - 1];
    assert LastIndexOf(r, '.') == Some(|stem|);
  }

  /** A name without dots simply gains the extension. */
  lemma WithExtensionNoDot(name: string, ext: string)
    requires '.' !in name
    requires |ext| > 0
    ensures WithExtension(name, ext) == name + "." + ext
  {
  }
}

=== FILE: records.dfy ===
/** The plain contents of a todo and of a note, as the backend serialises
    them. A note's file holds its title, its creation stamp and the contents
    of its todos, in that order; the note's path is not part of it. */
module Records {
  import opened Base

  /** `InternalTodo`: a tri-state completion flag and a description. */
  datatype TodoData = TodoData(done: Option<bool>, description: string)

  /** `InternalTodo::default()`: unset flag, empty description. */
  const DefaultTodo := TodoData(None, "")

  /** The serialised form of `InternalNote`. */
  datatype NoteRecord = NoteRecord(title: string, created: string, todos: seq<TodoData>)
}

=== FILE: seqs.dfy ===
/** Sequence operations the backend borrows from `Vec` and `Iterator`. */
module Seqs {
  import opened Base

  /** No element occurs twice. */
  ghost predicate Distinct<T>(s: seq<T>)
  {
    forall i, j | 0 <= i < j < |s| :: s[i] != s[j]
  }

  /** `Iterator::position`: the index of the first element satisfying `p`. */
  function FirstIndex<T>(s: seq<T>, p: T -> bool): (r: Option<nat>)
    ensures r.Some? ==> r.value < |s| && p(s[r.value])
    ensures r.Some? ==> forall j | 0 <= j < r.value :: !p(s[j])
    ensures r.None? ==> forall j | 0 <= j < |s| :: !p(s[j])
  {
    if |s| == 0 then None
    else if p(s[0]) then Some(0)
    else match FirstIndex(s[1..], p)
      case None => None
      case Some(i) => Some(i + 1)
  }

  /** `Iterator::filter`: the elements satisfying `p`, in their order. */
  function Filter<T>(s: seq<T>, p: T -> bool): (r: seq<T>)
    ensures forall i | 0 <= i < |r| :: r[i] in s && p(r[i])
    ensures forall x | x in s && p(x) :: x in r
    ensures Distinct(s) ==> Distinct(r)
  {
    if |s| == 0 then []
    else if p(s[0]) then [s[0]] + Filter(s[1..], p)
    else Filter(s[1..], p)
  }

  /** `Vec::remove`: drops the element at index `i` and keeps the rest in order. */
  function RemoveAt<T>(s: seq<T>, i: nat): (r: seq<T>)
    requires i < |s|
    ensures |r| == |s| - 1
    ensures forall j | 0 <= j < i :: r[j] == s[j]
    ensures forall j | i <= j < |r| :: r[j] == s[j + 1]
  {
    s[..i] + s[i + 1..]
  }
}

=== FILE: store.dfy ===
/** The shared cells behind `Todo` and `Note` handles.

    In the backend a `Todo` is an `Arc<RwLock<InternalTodo>>` and a `Note`
    an `Arc<RwLock<PersistenceInternalNote>>`: cloning a handle shares the
    cell, so a write through one handle is seen through every other. Here a
    handle is the id of a cell in a `Heap`, and cloning a handle copies the
    id. Locks are not modelled. */
module Store {
  import opened Base
  import opened Paths
  import opened Records
  import opened Seqs

  type TodoId = nat
  type NoteId = nat

  /** A `Todo` handle. */
  datatype Todo = Todo(id: TodoId)

  /** A `Note` handle. */
  datatype Note = Note(id: NoteId)

  /** `InternalNote`: the loaded payload of a note; its todos are handles. */
  datatype NoteData = NoteData(title: string, created: string, todos: seq<Todo>)

  /** `PersistenceInternalNote`: the backing path and the optional payload
      (`None` while nothing is loaded). */
  datatype NoteCell = NoteCell(path: Path, note: Option<NoteData>)

  /** Every todo cell and note cell alive, and the next unused id. */
  datatype Heap = Heap(todos: map<TodoId, TodoData>, notes: map<NoteId, NoteCell>, next: nat) {

    predicate HasTodo(t: Todo)
    {
      t.id in todos
    }

    predicate HasNote(n: Note)
    {
      n.id in notes
    }

    /** Every todo a note holds is a live cell. */
    ghost predicate Closed(cell: NoteCell)
    {
      cell.note.Some? ==> forall t | t in cell.note.value.todos :: t.id in todos
    }

    /** Ids below `next` are the only ones in use, and no note refers to a
        missing todo. */
    ghost predicate Valid()
    {
      && (forall id | id in todos :: id < next)
      && (forall id | id in notes :: id < next)
      && (forall id | id in notes :: Closed(notes[id]))
    }
  }

  /** `Arc::new(RwLock::new(d))` for a todo: a cell under an unused id. */
  function NewTodo(h: Heap, d: TodoData): (r: (Heap, Todo))
    requires h.Valid()
    ensures r.1.id !in h.todos && r.1.id !in h.notes
    ensures r.0.todos == h.todos[r.1.id := d]
    ensures r.0.notes == h.notes
    ensures h.next <= r.1.id < r.0.next
    ensures r.0.Valid()
  {
    (h.(todos := h.todos[h.next := d], next := h.next + 1), Todo(h.next))
  }

  /** Fresh cells for a list of todo contents, in order (what deserialising
      a `Vec<Todo>` builds). */
  function NewTodos(h: Heap, ds: seq<TodoData>): (r: (Heap, seq<Todo>))
    requires h.Valid()
    ensures r.0.Valid()
    ensures r.0.notes == h.notes
    ensures h.next <= r.0.next
    ensures |r.1| == |ds|
    ensures forall i | 0 <= i < |ds| :: r.1[i].id !in h.todos && h.next <= r.1[i].id
    ensures forall i | 0 <= i < |ds| :: r.1[i].id in r.0.todos && r.0.todos[r.1[i].id] == ds[i]
    ensures forall id | id in h.todos :: id in r.0.todos && r.0.todos[id] == h.todos[id]
    ensures Distinct(r.1)
    decreases |ds|
  {
    if |ds| == 0 then (h, [])
    else
      var (h1, t) := NewTodo(h, ds[0]);
      var (h2, ts) := NewTodos(h1, ds[1..]);
      (h2, [t] + ts)
  }

  /** `Arc::new(RwLock::new(c))` for a note. */
  function NewNote(h: Heap, c: NoteCell): (r: (Heap, Note))
    requires h.Valid()
    requires h.Closed(c)
    ensures r.1.id !in h.notes
    ensures r.0.notes == h.notes[r.1.id := c]
    ensures r.0.todos == h.todos
    ensures h.next <= r.1.id < r.0.next
    ensures r.0.Valid()
  {
    (h.(notes := h.notes[h.next := c], next := h.next + 1), Note(h.next))
  }

  /** The contents behind a list of todo handles, in order. */
  function Contents(h: Heap, ts: seq<Todo>): (r: seq<TodoData>)
    requires forall t | t in ts :: t.id in h.todos
    ensures |r| == |ts|
    ensures forall i | 0 <= i < |ts| :: r[i] == h.todos[ts[i].id]
  {
    if |ts| == 0 then [] else [h.todos[ts[0].id]] + Contents(h, ts[1..])
  }

  /** What serialising an `InternalNote` sees: its fields, with the todos
      read through their handles. */
  function Record(h: Heap, d: NoteData): NoteRecord
    requires forall t | t in d.todos :: t.id in h.todos
  {
    NoteRecord(d.title, d.created, Contents(h, d.todos))
  }
}

=== FILE: text.dfy ===
/** String operations: Rust's `Ord` on `String` and `str::contains`. */
module Text {
  import opened Base

  /** `Ord::cmp` on strings: lexicographic by code point, a proper prefix
      ordered first. (Comparing UTF-8 bytes, as Rust does, gives the same
      order as comparing code points.) */
  function CompareStrings(a: string, b: string): Ordering
  {
    if |a| == 0 && |b| == 0 then Equal
    else if |a| == 0 then Less
    else if |b| == 0 then Greater
    else if a[0] < b[0] then Less
    else if b[0] < a[0] then Greater
    else CompareStrings(a[1..], b[1..])
  }

  /** The comparison reports `Equal` exactly for equal strings. */
  lemma {:induction false} CompareStringsEqual(a: string, b: string)
    ensures CompareStrings(a, b) == Equal <==> a == b
  {
    if |a| > 0 && |b| > 0 && a[0] == b[0] {
      CompareStringsEqual(a[1..], b[1..]);
      assert a == [a[0]] + a[1..] && b == [b[0]] + b[1..];
    }
  }

  /** Swapping the operands reverses the outcome. */
  lemma {:induction false} CompareStringsReverse(a: string, b: string)
    ensures CompareStrings(b, a) == CompareStrings(a, b).Reverse()
  {
    if |a| > 0 && |b| > 0 && a[0] == b[0] {
      CompareStringsReverse(a[1..], b[1..]);
    }
  }

  /** `Less` is transitive. */
  lemma {:induction false} CompareStringsTransitive(a: string, b: string, c: string)
    requires CompareStrings(a, b) == Less
    requires CompareStrings(b, c) == Less
    ensures CompareStrings(a, c) == Less
  {
    if |a| > 0 && |b| > 0 && |c| > 0 && a[0] == b[0] && b[0] == c[0] {
      CompareStringsTransitive(a[1..], b[1..], c[1..]);
    }
  }

  /** `sub` occurs in `s` starting at index `i`. */
  ghost predicate OccursAt(s: string, sub: string, i: int)
  {
    0 <= i && i + |sub| <= |s| && s[i..i + |sub|] == sub
  }

  /** `str::contains`: `sub` occurs anywhere in `s`, not only at its end. */
  function Contains(s: string, sub: string): (r: bool)
    ensures r <==> exists i :: OccursAt(s, sub, i)
    decreases |s|
  {
    if |sub| > |s| then
      assert forall i :: !OccursAt(s, sub, i);
      false
    else if s[..|sub|] == sub then
      assert OccursAt(s, sub, 0);
      true
    else
      var r := Contains(s[1..], sub);
      assert forall i :: OccursAt(s[1..], sub, i) <==> OccursAt(s, sub, i + 1) by {
        forall i
          ensures OccursAt(s[1..], sub, i) <==> OccursAt(s, sub, i + 1)
        {
          if 0 <= i && i + |sub| <= |s[1..]| {
            assert s[1..][i..i + |sub|] == s[i + 1..i + 1 + |sub|];
          }
        }
      }
      assert r ==> exists i :: OccursAt(s, sub, i) by {
        if r {
          var i :| OccursAt(s[1..], sub, i);
          assert OccursAt(s, sub, i + 1);
        }
      }
      assert (exists i :: OccursAt(s, sub, i)) ==> r by {
        if exists i :: OccursAt(s, sub, i) {
          var i :| OccursAt(s, sub, i);
          assert i != 0;
          assert OccursAt(s[1..], sub, i - 1);
        }
      }
      r
  }

  /** The index of the last occurrence of `c` in `s`. */
  function LastIndexOf(s: string, c: char): (r: Option<nat>)
    ensures r.Some? ==> r.value < |s| && s[r.value] == c
    ensures r.Some? ==> forall j | r.value < j < |s| :: s[j] != c
    ensures r.None? ==> c !in s
    decreases |s|
  {
    if |s| == 0 then None
    else if s[|s| - 1] == c then Some(|s| - 1)
    else
      var r := LastIndexOf(s[..|s| - 1], c);
      assert s == s[..|s| - 1] + [s[|s| - 1]];
      r
  }
}

=== FILE: todo.dfy ===
/** `Todo`: a shared handle to a completion flag and a description. */
module Todos {
  import opened Base
  import opened Records
  import opened Store
  import opened Text

  /** `Todo::done`: the flag of the shared cell, which is what a save of the
      owning note writes for it (`Notes.SaveWritesTodoFields`). */
  function Done(h: Heap, t: Todo): (r: Option<bool>)
    requires h.HasTodo(t)
    ensures Contents(h, [t])[0].done == r
  {
    h.todos[t.id].done
  }

  /** `Todo::description`: the text of the shared cell, which is what a save
      of the owning note writes for it (`Notes.SaveWritesTodoFields`). */
  function Description(h: Heap, t: Todo): (r: string)
    requires h.HasTodo(t)
    ensures Contents(h, [t])[0].description == r
  {
    h.todos[t.id].description
  }

  /** `Todo::set_done`: overwrites the flag of the shared cell and nothing else. */
  function SetDone(h: Heap, t: Todo, done: Option<bool>): (r: Heap)
    requires h.HasTodo(t)
    ensures r.HasTodo(t) && Done(r, t) == done && Description(r, t) == Description(h, t)
    ensures r.todos.Keys == h.todos.Keys
    ensures forall id | id in h.todos && id != t.id :: r.todos[id] == h.todos[id]
    ensures r.notes == h.notes && r.next == h.next
    ensures h.Valid() ==> r.Valid()
  {
    h.(todos := h.todos[t.id := h.todos[t.id].(done := done)])
  }

  /** `Todo::set_description`: overwrites the description of the shared cell
      and nothing else. */
  function SetDescription(h: Heap, t: Todo, description: string): (r: Heap)
    requires h.HasTodo(t)
    ensures r.HasTodo(t) && Description(r, t) == description && Done(r, t) == Done(h, t)
    ensures r.todos.Keys == h.todos.Keys
    ensures forall id | id in h.todos && id != t.id :: r.todos[id] == h.todos[id]
    ensures r.notes == h.notes && r.next == h.next
    ensures h.Valid() ==> r.Valid()
  {
    h.(todos := h.todos[t.id := h.todos[t.id].(description := description)])
  }

  /** A write through one handle is read back through every clone of it,
      and through no handle to another cell. */
  lemma SharedWrite(h: Heap, t: Todo, u: Todo, description: string)
    requires h.HasTodo(t) && h.HasTodo(u)
    ensures u.id == t.id ==> Description(SetDescription(h, t, description), u) == description
    ensures u.id != t.id ==> Description(SetDescription(h, t, description), u) == Description(h, u)
  {
  }

  /* ---------- equality and ordering ---------- */

  /** Position of a flag in the derived order of `Option<bool>`. */
  function DoneRank(d: Option<bool>): nat
  {
    match d
    case None => 0
    case Some(false) => 1
    case Some(true) => 2
  }

  /** The derived `Ord` of `Option<bool>`: `None < Some(false) < Some(true)`. */
  function CompareDone(a: Option<bool>, b: Option<bool>): (r: Ordering)
    ensures r == Equal <==> a == b
    ensures r == Less <==> DoneRank(a) < DoneRank(b)
    ensures r == Greater <==> DoneRank(b) < DoneRank(a)
  {
    match (a, b)
    case (None, None) => Equal
    case (None, Some(_)) => Less
    case (Some(_), None) => Greater
    case (Some(x), Some(y)) => if x == y then Equal else if !x then Less else Greater
  }

  /** The derived `Ord` of `InternalTodo`: the flag first, then the description. */
  function CompareData(a: TodoData, b: TodoData): Ordering
  {
    match CompareDone(a.done, b.done)
    case Equal => CompareStrings(a.description, b.description)
    case other => other
  }

  lemma CompareDataEqual(a: TodoData, b: TodoData)
    ensures CompareData(a, b) == Equal <==> a == b
  {
    CompareStringsEqual(a.description, b.description);
  }

  lemma CompareDataReverse(a: TodoData, b: TodoData)
    ensures CompareData(b, a) == CompareData(a, b).Reverse()
  {
    CompareStringsReverse(a.description, b.description);
  }

  lemma CompareDataTransitive(a: TodoData, b: TodoData, c: TodoData)
    requires CompareData(a, b) == Less && CompareData(b, c) == Less
    ensures CompareData(a, c) == Less
  {
    if a.done == b.done && b.done == c.done {
      CompareStringsTransitive(a.description, b.description, c.description);
    }
  }

  /** `PartialEq for Todo`: the contents behind the two handles agree. */
  predicate Eq(h: Heap, a: Todo, b: Todo)
    requires h.HasTodo(a) && h.HasTodo(b)
  {
    h.todos[a.id] == h.todos[b.id]
  }

  /** `PartialOrd for Todo`: the contents behind the two handles, compared. */
  function Cmp(h: Heap, a: Todo, b: Todo): Ordering
    requires h.HasTodo(a) && h.HasTodo(b)
  {
    CompareData(h.todos[a.id], h.todos[b.id])
  }

  /** Equality and ordering agree: handles are equal exactly when they
      compare `Equal`, which happens exactly when both flag and description
      agree, whether or not the handles share a cell. */
  lemma EqIffCmpEqual(h: Heap, a: Todo, b: Todo)
    requires h.HasTodo(a) && h.HasTodo(b)
    ensures Eq(h, a, b) <==> Cmp(h, a, b) == Equal
    ensures Eq(h, a, b) <==> Done(h, a) == Done(h, b) && Description(h, a) == Description(h, b)
  {
    CompareDataEqual(h.todos[a.id], h.todos[b.id]);
  }

  /** The ordering is a strict total order on contents. */
  lemma CmpIsTotalOrder(h: Heap, a: Todo, b: Todo, c: Todo)
    requires h.HasTodo(a) && h.HasTodo(b) && h.HasTodo(c)
    ensures Cmp(h, b, a) == Cmp(h, a, b).Reverse()
    ensures Cmp(h, a, b) == Less && Cmp(h, b, c) == Less ==> Cmp(h, a, c) == Less
  {
    CompareDataReverse(h.todos[a.id], h.todos[b.id]);
    if Cmp(h, a, b) == Less && Cmp(h, b, c) == Less {
      CompareDataTransitive(h.todos[a.id], h.todos[b.id], h.todos[c.id]);
    }
  }
}

=== FILE: wall.dfy ===
/** `NotesWall`: the notes kept in one folder, one file per note, in the
    order the folder listing reports them and then in creation order. */
module Walls {
  import opened Base
  import opened Paths
  import opened Records
  import opened Seqs
  import opened Store
  import opened Text
  import Notes
  import Fs

  /** The extension of note files. */
  const FILE_EXTENSION := "post"

  /** What `init` looks for in a file name. */
  const MARKER := "." + FILE_EXTENSION

  datatype NotesWall = NotesWall(folder: Path, notes: seq<Note>)

  /** Every handle in `notes` is a live cell. */
  ghost predicate Live(h: Heap, notes: seq<Note>)
  {
    forall i | 0 <= i < |notes| :: h.HasNote(notes[i])
  }

  /** What a wall keeps true: its notes are live and loaded, each lies
      directly inside the folder, and no two share a path. */
  ghost predicate Inv(h: Heap, w: NotesWall)
  {
    && h.Valid()
    && Live(h, w.notes)
    && (forall i | 0 <= i < |w.notes| :: InDir(Notes.PathOf(h, w.notes[i]), w.folder))
    && (forall i | 0 <= i < |w.notes| :: Notes.Payload(h, w.notes[i]).Some?)
    && (forall i, j | 0 <= i < j < |w.notes| :: Notes.PathOf(h, w.notes[i]) != Notes.PathOf(h, w.notes[j]))
  }

  /* ---------- init ---------- */

  /** An entry `init` keeps: its name contains ".post" anywhere (a
      substring, not a suffix test) and its file reads and decodes. */
  predicate Discoverable(fs: Fs.FileSystem, folder: Path, name: string)
  {
    Contains(name, MARKER) && Notes.FileRecord(fs, folder + [name]).Some?
  }

  /** Reference definition: the discoverable names, in listing order. */
  function Discovered(fs: Fs.FileSystem, folder: Path, names: seq<string>): (r: seq<string>)
    ensures forall i | 0 <= i < |r| :: r[i] in names && Discoverable(fs, folder, r[i])
    ensures forall name | name in names && Discoverable(fs, folder, name) :: name in r
    ensures Distinct(names) ==> Distinct(r)
  {
    Filter(names, name => Discoverable(fs, folder, name))
  }

  /** Note `n` is what `init` makes of the file `folder/name`: it sits at
      that path and holds what the file decodes to. */
  ghost predicate FoundAt(h: Heap, fs: Fs.FileSystem, folder: Path, n: Note, name: string)
  {
    && h.Valid() && h.HasNote(n)
    && Notes.PathOf(h, n) == folder + [name]
    && Notes.Snapshot(h, n) == Notes.FileRecord(fs, folder + [name])
  }

  /** The payload `Note::default()` starts with; `init` overwrites it on a
      successful load and drops the note otherwise, so its contents are
      never observed. */
  const Placeholder := NoteData("", "", [])

  /** The scan behind `init`: for each name containing ".post", a new note
      at `folder/name` that is kept only if it loads. */
  function Scan(h: Heap, fs: Fs.FileSystem, folder: Path, names: seq<string>): (r: (Heap, seq<Note>))
    requires h.Valid()
    ensures r.0.Valid()
    ensures forall i | 0 <= i < |r.1| :: r.0.HasNote(r.1[i]) && r.1[i].id !in h.notes
    ensures forall id | id in h.notes :: id in r.0.notes && r.0.notes[id] == h.notes[id]
    ensures forall id | id in h.todos :: id in r.0.todos && r.0.todos[id] == h.todos[id]
    decreases |names|
  {
    if |names| == 0 then (h, [])
    else if !Contains(names[0], MARKER) then Scan(h, fs, folder, names[1..])
    else
      var (h1, n) := NewNote(h, NoteCell(folder + [names[0]], Some(Placeholder)));
      var (h2, ok) := Notes.Load(h1, fs, n);
      var (h3, rest) := Scan(h2, fs, folder, names[1..]);
      FreshNotes(h, h2, h3, n, rest);
      if ok then (h3, [n] + rest) else (h3, rest)
  }

  /** Notes fresh after `h2`, and one fresh after `h`, are all fresh after
      `h` when `h2` keeps every note of `h`. */
  lemma FreshNotes(h: Heap, h2: Heap, h3: Heap, n: Note, rest: seq<Note>)
    requires h3.HasNote(n) && n.id !in h.notes
    requires h.notes.Keys <= h2.notes.Keys
    requires forall i | 0 <= i < |rest| :: h3.HasNote(rest[i]) && rest[i].id !in h2.notes
    ensures forall i | 0 <= i < |rest| :: h3.HasNote(rest[i]) && rest[i].id !in h.notes
    ensures forall i | 0 <= i < |[n] + rest| :: h3.HasNote(([n] + rest)[i]) && ([n] + rest)[i].id !in h.notes
  {
    var notes := [n] + rest;
    forall i | 0 <= i < |notes|
      ensures h3.HasNote(notes[i]) && notes[i].id !in h.notes
    {
      if i > 0 {
        assert notes[i] == rest[i - 1];
      }
    }
  }

  /** The scan keeps exactly the discoverable names, in listing order, each
      as a note at `folder/name` holding what its file decodes to. */
  lemma {:induction false} ScanFinds(h: Heap, fs: Fs.FileSystem, folder: Path, names: seq<string>)
    requires h.Valid()
    ensures var (h', notes) := Scan(h, fs, folder, names);
      var found := Discovered(fs, folder, names);
      && |notes| == |found|
      && forall i | 0 <= i < |notes| :: FoundAt(h', fs, folder, notes[i], found[i])
    decreases |names|
  {
    if |names| == 0 {
    } else if !Contains(names[0], MARKER) {
      ScanFinds(h, fs, folder, names[1..]);
    } else {
      var (h1, n) := NewNote(h, NoteCell(folder + [names[0]], Some(Placeholder)));
      var (h2, ok) := Notes.Load(h1, fs, n);
      var (h3, rest) := Scan(h2, fs, folder, names[1..]);
      ScanFinds(h2, fs, folder, names[1..]);
      var found := Discovered(fs, folder, names[1..]);
      if ok {
        assert Discovered(fs, folder, names) == [names[0]] + found;
        SnapshotKept(h2, h3, n);
        assert Scan(h, fs, folder, names) == (h3, [n] + rest);
        FoundCons(h3, fs, folder, n, rest, names[0], found);
      } else {
        assert Discovered(fs, folder, names) == found;
      }
    }
  }

  /** Putting one matching note in front of matching lists keeps them matching. */
  lemma FoundCons(h: Heap, fs: Fs.FileSystem, folder: Path, n: Note, rest: seq<Note>, name: string, found: seq<string>)
    requires |rest| == |found|
    requires forall i | 0 <= i < |rest| :: FoundAt(h, fs, folder, rest[i], found[i])
    requires FoundAt(h, fs, folder, n, name)
    ensures var notes, names := [n] + rest, [name] + found;
      forall i | 0 <= i < |notes| :: FoundAt(h, fs, folder, notes[i], names[i])
  {
    var notes, names := [n] + rest, [name] + found;
    forall i | 0 <= i < |notes|
      ensures FoundAt(h, fs, folder, notes[i], names[i])
    {
      if i > 0 {
        assert notes[i] == rest[i - 1] && names[i] == found[i - 1];
      }
    }
  }

  /** A note's snapshot survives any step that keeps its cell and the
      contents of every existing todo. */
  lemma SnapshotKept(h: Heap, h': Heap, n: Note)
    requires h.Valid() && h'.Valid() && h.HasNote(n)
    requires n.id in h'.notes && h'.notes[n.id] == h.notes[n.id]
    requires forall id | id in h.todos :: id in h'.todos && h'.todos[id] == h.todos[id]
    ensures Notes.Snapshot(h', n) == Notes.Snapshot(h, n)
  {
    assert h.Closed(h.notes[n.id]);
    match Notes.Payload(h, n)
    case None =>
    case Some(d) =>
      assert Contents(h', d.todos) == Contents(h, d.todos);
  }

  /** `NotesWall::init`: replaces the notes by the loadable note files of
      the folder, in listing order. Fails, leaving the wall as it was,
      when the folder cannot be listed. */
  function Init(h: Heap, fs: Fs.FileSystem, w: NotesWall): (r: Result<(Heap, NotesWall), Error>)
    requires h.Valid()
    ensures r.Err? <==> Fs.ListDir(fs, w.folder).None?
    ensures r.Err? ==> r.error == DirUnreadable
    ensures r.Ok? ==> r.value.0.Valid() && r.value.1.folder == w.folder
    ensures r.Ok? ==> var names := Discovered(fs, w.folder, Fs.ListDir(fs, w.folder).value);
      && |r.value.1.notes| == |names|
      && forall i | 0 <= i < |names| ::
           && r.value.0.HasNote(r.value.1.notes[i])
           && Notes.PathOf(r.value.0, r.value.1.notes[i]) == w.folder + [names[i]]
           && Notes.Snapshot(r.value.0, r.value.1.notes[i]) == Notes.FileRecord(fs, w.folder + [names[i]])
    ensures r.Ok? && fs.Valid() ==> Inv(r.value.0, r.value.1)
    ensures r.Ok? ==> forall i | 0 <= i < |r.value.1.notes| :: r.value.1.notes[i].id !in h.notes
    ensures r.Ok? ==> forall id | id in h.notes :: id in r.value.0.notes && r.value.0.notes[id] == h.notes[id]
    ensures r.Ok? ==> forall id | id in h.todos :: id in r.value.0.todos && r.value.0.todos[id] == h.todos[id]
  {
    match Fs.ListDir(fs, w.folder)
    case None => Err(DirUnreadable)
    case Some(names) =>
      ScanFinds(h, fs, w.folder, names);
      var (h', notes) := Scan(h, fs, w.folder, names);
      var w' := w.(notes := notes);
      assert fs.Valid() ==> Inv(h', w') by {
        if fs.Valid() {
          var found := Discovered(fs, w.folder, names);
          forall i | 0 <= i < |notes|
            ensures Notes.Payload(h', notes[i]).Some?
          {
            assert Notes.Snapshot(h', notes[i]).Some?;
          }
          forall i, j | 0 <= i < j < |notes|
            ensures Notes.PathOf(h', notes[i]) != Notes.PathOf(h', notes[j])
          {
            assert found[i] != found[j];
            assert (w.folder + [found[i]])[|w.folder|] == found[i];
            assert (w.folder + [found[j]])[|w.folder|] == found[j];
          }
          forall i | 0 <= i < |notes|
            ensures InDir(Notes.PathOf(h', notes[i]), w.folder)
          {
            assert (w.folder + [found[i]])[..|w.folder|] == w.folder;
          }
        }
      }
      Ok((h', w'))
  }

  /** A wall over an existing folder with no files in it loads no notes. */
  lemma InitEmptyFolder(h: Heap, fs: Fs.FileSystem, w: NotesWall)
    requires h.Valid() && fs.Valid()
    requires w.folder in fs.dirs && w.folder !in fs.denied
    requires forall p | p in fs.files :: !InDir(p, w.folder)
    ensures Init(h, fs, w).Ok?
    ensures Init(h, fs, w).value.1.notes == []
  {
  }

  /** `NotesWall::get_notes`: clones of the handles, sharing their cells. */
  function GetNotes(w: NotesWall): seq<Note>
  {
    w.notes
  }

  /* ---------- create_note ---------- */

  /** What the clock format `%d_%m_%Y_%H:%M_%6f` produces: digits, '_'
      and ':'. */
  predicate IsStamp(s: string)
  {
    |s| > 0 && forall i | 0 <= i < |s| :: s[i] in "0123456789_:"
  }

  /** The file name of a note created at `created`. */
  lemma StampFileName(created: string)
    requires IsStamp(created)
    ensures WithExtension(created, FILE_EXTENSION) == created + MARKER
    ensures Contains(created + MARKER, MARKER)
  {
    assert '.' !in created;
    WithExtensionNoDot(created, FILE_EXTENSION);
    assert OccursAt(created + MARKER, MARKER, |created|);
  }

  /** `NotesWall::create_note`: a fresh loaded note with an empty title, the
      given creation stamp (the clock reading) and no todos, at
      `folder/<created>.post`, appended to the wall. Nothing is written. */
  function CreateNote(h: Heap, w: NotesWall, created: string): (r: (Heap, NotesWall, Note))
    requires h.Valid()
    requires IsStamp(created)
    ensures r.0.Valid() && r.0.HasNote(r.2) && r.2.id !in h.notes
    ensures r.1.folder == w.folder && r.1.notes == w.notes + [r.2]
    ensures Notes.PathOf(r.0, r.2) == w.folder + [created + MARKER]
    ensures InDir(Notes.PathOf(r.0, r.2), w.folder) && Notes.Payload(r.0, r.2).Some?
    ensures Notes.Snapshot(r.0, r.2) == Some(NoteRecord("", created, []))
    ensures Notes.Title(r.0, r.2) == created
    ensures forall id | id in h.notes :: id in r.0.notes && r.0.notes[id] == h.notes[id]
    ensures r.0.todos == h.todos
  {
    var (h1, n) := NewNote(h, NoteCell([], Some(NoteData("", created, []))));
    StampFileName(created);
    var h2 := Notes.SetPath(h1, n, w.folder + [WithExtension(created, FILE_EXTENSION)]);
    assert Contents(h2, []) == [];
    assert (w.folder + [created + MARKER])[..|w.folder|] == w.folder;
    (h2, w.(notes := w.notes + [n]), n)
  }

  /** A note created under an unused path keeps the wall invariant. */
  lemma CreateNoteKeepsInv(h: Heap, w: NotesWall, created: string)
    requires Inv(h, w)
    requires IsStamp(created)
    requires forall i | 0 <= i < |w.notes| :: Notes.PathOf(h, w.notes[i]) != w.folder + [created + MARKER]
    ensures Inv(CreateNote(h, w, created).0, CreateNote(h, w, created).1)
  {
    var (h', w', n) := CreateNote(h, w, created);
    forall i | 0 <= i < |w'.notes|
      ensures h'.HasNote(w'.notes[i])
      ensures InDir(Notes.PathOf(h', w'.notes[i]), w.folder)
      ensures Notes.Payload(h', w'.notes[i]).Some?
    {
      if i < |w.notes| {
        assert w'.notes[i] == w.notes[i];
      }
    }
  }

  /* ---------- remove_note ---------- */

  function MatchesPath(h: Heap, p: Path): (r: Note -> bool)
    ensures forall x :: r(x) == (x.id in h.notes && h.notes[x.id].path == p)
  {
    (x: Note) => x.id in h.notes && h.notes[x.id].path == p
  }

  /** `NotesWall::remove_note`: finds the first note equal to `n` (same
      path). With none, succeeds and changes nothing. Otherwise drops it
      from the wall, then deletes the file at the path; a failed deletion
      is reported as "Failed to remove" but the note stays dropped. */
  function RemoveNote(h: Heap, fs: Fs.FileSystem, w: NotesWall, n: Note): (r: (NotesWall, Fs.FileSystem, Result<(), Error>))
    requires h.HasNote(n) && Live(h, w.notes)
    ensures r.0.folder == w.folder
    ensures (forall i | 0 <= i < |w.notes| :: !Notes.Eq(h, w.notes[i], n)) ==> r == (w, fs, Ok(()))
    ensures forall i | 0 <= i < |w.notes| && Notes.Eq(h, w.notes[i], n) && (forall j | 0 <= j < i :: !Notes.Eq(h, w.notes[j], n)) ::
      && r.0.notes == w.notes[..i] + w.notes[i + 1..]
      && (r.2.Ok? <==> Notes.PathOf(h, n) in fs.files && Notes.PathOf(h, n) !in fs.denied)
      && (r.2.Ok? ==> r.1.files == fs.files - {Notes.PathOf(h, n)} && r.1.dirs == fs.dirs && r.1.denied == fs.denied)
      && (r.2.Err? ==> r.1 == fs && r.2.error == FailedRemove)
    ensures r.2.Ok? && fs.Valid() ==> r.1.Valid()
  {
    var p := Notes.PathOf(h, n);
    var found := FirstIndex(w.notes, MatchesPath(h, p));
    assert forall i | 0 <= i < |w.notes| :: MatchesPath(h, p)(w.notes[i]) == Notes.Eq(h, w.notes[i], n);
    match found
    case None => (w, fs, Ok(()))
    case Some(i) =>
      var w' := w.(notes := RemoveAt(w.notes, i));
      assert w'.notes == w.notes[..i] + w.notes[i + 1..];
      match Fs.Remove(fs, p)
      case None => (w', fs, Err(FailedRemove))
      case Some(fs') => (w', fs', Ok(()))
  }

  /** Removing a note keeps the wall invariant. */
  lemma RemoveNoteKeepsInv(h: Heap, fs: Fs.FileSystem, w: NotesWall, n: Note)
    requires Inv(h, w) && h.HasNote(n)
    ensures Inv(h, RemoveNote(h, fs, w, n).0)
  {
    var p := Notes.PathOf(h, n);
    match FirstIndex(w.notes, MatchesPath(h, p))
    case None =>
    case Some(i) =>
      var w' := RemoveNote(h, fs, w, n).0;
      assert Notes.Eq(h, w.notes[i], n);
      assert w'.notes == RemoveAt(w.notes, i);
      forall a, b | 0 <= a < b < |w'.notes|
        ensures Notes.PathOf(h, w'.notes[a]) != Notes.PathOf(h, w'.notes[b])
      {
        var a' := if a < i then a else a + 1;
        var b' := if b < i then b else b + 1;
        assert w'.notes[a] == w.notes[a'] && w'.notes[b] == w.notes[b'];
      }
      forall a | 0 <= a < |w'.notes|
        ensures h.HasNote(w'.notes[a])
        ensures InDir(Notes.PathOf(h, w'.notes[a]), w.folder)
        ensures Notes.Payload(h, w'.notes[a]).Some?
      {
        var a' := if a < i then a else a + 1;
        assert w'.notes[a] == w.notes[a'];
      }
  }

  /** Creating a note and removing it at once gives back the wall as it
      was; the call reports "Failed to remove" exactly when there is no
      accessible file to delete, as for a note never saved. */
  lemma CreateThenRemove(h: Heap, fs: Fs.FileSystem, w: NotesWall, created: string)
    requires Inv(h, w)
    requires IsStamp(created)
    requires forall i | 0 <= i < |w.notes| :: Notes.PathOf(h, w.notes[i]) != w.folder + [created + MARKER]
    ensures var (h1, w1, n) := CreateNote(h, w, created);
      var (w2, fs2, status) := RemoveNote(h1, fs, w1, n);
      && w2 == w
      && (status.Ok? <==> w.folder + [created + MARKER] in fs.files && w.folder + [created + MARKER] !in fs.denied)
      && (status.Ok? ==> w.folder + [created + MARKER] !in fs2.files)
      && (status.Err? ==> fs2 == fs)
  {
    var (h1, w1, n) := CreateNote(h, w, created);
    forall j | 0 <= j < |w.notes|
      ensures h1.HasNote(w.notes[j]) && !Notes.Eq(h1, w.notes[j], n)
    {
      assert h1.notes[w.notes[j].id] == h.notes[w.notes[j].id];
    }
    RemoveAppended(h1, fs, w, n);
  }

  /** Removing a note just appended to a wall, when no earlier note has its
      path, gives back the wall as it was and deletes the note's file. */
  lemma RemoveAppended(h: Heap, fs: Fs.FileSystem, w: NotesWall, n: Note)
    requires h.HasNote(n) && Live(h, w.notes)
    requires forall i | 0 <= i < |w.notes| :: !Notes.Eq(h, w.notes[i], n)
    ensures var (w2, fs2, status) := RemoveNote(h, fs, w.(notes := w.notes + [n]), n);
      && w2 == w
      && (status.Ok? <==> Notes.PathOf(h, n) in fs.files && Notes.PathOf(h, n) !in fs.denied)
      && (status.Ok? ==> Notes.PathOf(h, n) !in fs2.files)
      && (status.Err? ==> fs2 == fs)
  {
    var w1 := w.(notes := w.notes + [n]);
    var k := |w.notes|;
    forall j | 0 <= j < k
      ensures !Notes.Eq(h, w1.notes[j], n)
    {
      assert w1.notes[j] == w.notes[j];
    }
    assert Notes.Eq(h, w1.notes[k], n);
    assert w1.notes[..k] + w1.notes[k + 1..] == w.notes;
  }

  /* ---------- save_all ---------- */

  /** Saving `n` fails: it is loaded and its path cannot be written. */
  ghost predicate SaveFails(h: Heap, fs: Fs.FileSystem, n: Note)
    requires h.HasNote(n)
  {
    Notes.Payload(h, n).Some? && !Fs.Writable(fs, Notes.PathOf(h, n))
  }

  /** `p` is the path of a note in `notes` whose save writes a file. */
  ghost predicate Written(h: Heap, fs: Fs.FileSystem, notes: seq<Note>, p: Path)
    requires Live(h, notes)
  {
    exists i | 0 <= i < |notes| ::
      Notes.Payload(h, notes[i]).Some? && Fs.Writable(fs, Notes.PathOf(h, notes[i])) && Notes.PathOf(h, notes[i]) == p
  }

  /** What `Note::save` returns; its write is the new file system. */
  function Status(result: Result<Fs.FileSystem, Error>): Result<(), Error>
  {
    match result
    case Ok(_) => Ok(())
    case Err(e) => Err(e)
  }

  /** The loop of `save_all`: saves each note in turn, folding each outcome
      into `status` with `Result::and`. Every note is attempted; the
      first error is the one reported. */
  function SaveLoop(h: Heap, fs: Fs.FileSystem, notes: seq<Note>, status: Result<(), Error>): (r: (Fs.FileSystem, Result<(), Error>))
    requires h.Valid() && Live(h, notes)
    ensures status.Err? ==> r.1 == status
    ensures status.Ok? ==> (r.1.Err? <==> exists i | 0 <= i < |notes| :: SaveFails(h, fs, notes[i]))
    ensures r.1.Err? && status.Ok? ==> r.1.error == FailedSerialization
    ensures r.0.dirs == fs.dirs && r.0.denied == fs.denied
    ensures fs.Valid() ==> r.0.Valid()
    ensures forall p | !Written(h, fs, notes, p) ::
      (p in r.0.files <==> p in fs.files) && (p in fs.files ==> r.0.files[p] == fs.files[p])
    ensures forall i | 0 <= i < |notes| && LastSave(h, fs, notes, i) ::
      Notes.FileRecord(r.0, Notes.PathOf(h, notes[i])) == Notes.Snapshot(h, notes[i])
    decreases |notes|
  {
    if |notes| == 0 then (fs, status)
    else
      var result := Notes.Save(h, fs, notes[0]);
      var fs1 := if result.Ok? then result.value else fs;
      SaveStep(h, fs, notes);
      var r := SaveLoop(h, fs1, notes[1..], status.And(Status(result)));
      SaveLoopLast(h, fs, notes, r.0);
      r
  }

  /** The save of `notes[i]` writes its file and no later note of the loop
      writes to the same path, so that file is the one left behind. */
  ghost predicate LastSave(h: Heap, fs: Fs.FileSystem, notes: seq<Note>, i: int)
    requires Live(h, notes) && 0 <= i < |notes|
  {
    && Notes.Payload(h, notes[i]).Some?
    && Fs.Writable(fs, Notes.PathOf(h, notes[i]))
    && forall j | i < j < |notes| :: Notes.PathOf(h, notes[j]) != Notes.PathOf(h, notes[i])
  }

  /** `LastSave` of a later note carries over to the rest of the loop, and
      the last save of the first note is not overwritten by it. */
  lemma LastSaveShift(h: Heap, fs: Fs.FileSystem, fs1: Fs.FileSystem, notes: seq<Note>)
    requires Live(h, notes) && |notes| > 0
    requires forall q :: Fs.Writable(fs1, q) == Fs.Writable(fs, q)
    ensures forall i | 1 <= i < |notes| :: LastSave(h, fs, notes, i) == LastSave(h, fs1, notes[1..], i - 1)
    ensures LastSave(h, fs, notes, 0) ==> !Written(h, fs1, notes[1..], Notes.PathOf(h, notes[0]))
  {
    forall i | 1 <= i < |notes|
      ensures LastSave(h, fs, notes, i) == LastSave(h, fs1, notes[1..], i - 1)
    {
      assert notes[1..][i - 1] == notes[i];
      assert forall j | i - 1 < j < |notes| - 1 :: notes[1..][j] == notes[j + 1];
    }
  }

  /** The `LastSave` clause of `SaveLoop` for `notes`, from the same clause
      and the frame for the rest of the loop, which starts from the file
      system the first save leaves. */
  lemma SaveLoopLast(h: Heap, fs: Fs.FileSystem, notes: seq<Note>, fs': Fs.FileSystem)
    requires h.Valid() && Live(h, notes) && |notes| > 0
    requires var result := Notes.Save(h, fs, notes[0]);
      var fs1 := if result.Ok? then result.value else fs;
      && fs'.denied == fs1.denied
      && (forall p | !Written(h, fs1, notes[1..], p) ::
            (p in fs'.files <==> p in fs1.files) && (p in fs1.files ==> fs'.files[p] == fs1.files[p]))
      && (forall i | 0 <= i < |notes| - 1 && LastSave(h, fs1, notes[1..], i) ::
            Notes.FileRecord(fs', Notes.PathOf(h, notes[1..][i])) == Notes.Snapshot(h, notes[1..][i]))
    ensures forall i | 0 <= i < |notes| && LastSave(h, fs, notes, i) ::
      Notes.FileRecord(fs', Notes.PathOf(h, notes[i])) == Notes.Snapshot(h, notes[i])
  {
    var result := Notes.Save(h, fs, notes[0]);
    var fs1 := if result.Ok? then result.value else fs;
    SaveStep(h, fs, notes);
    LastSaveShift(h, fs, fs1, notes);
    forall i | 0 <= i < |notes| && LastSave(h, fs, notes, i)
      ensures Notes.FileRecord(fs', Notes.PathOf(h, notes[i])) == Notes.Snapshot(h, notes[i])
    {
      if i == 0 {
        var p := Notes.PathOf(h, notes[0]);
        assert !Written(h, fs1, notes[1..], p);
        assert Fs.Read(fs', p) == Fs.Read(fs1, p);
      } else {
        assert notes[1..][i - 1] == notes[i];
      }
    }
  }

  /** One save of the loop: it fails exactly when the note is loaded and
      its path is not writable, it keeps which paths are writable, and it
      changes no file outside the paths the loop writes. */
  lemma SaveStep(h: Heap, fs: Fs.FileSystem, notes: seq<Note>)
    requires h.Valid() && Live(h, notes) && |notes| > 0
    ensures var result := Notes.Save(h, fs, notes[0]);
      var fs1 := if result.Ok? then result.value else fs;
      && (result.Err? <==> SaveFails(h, fs, notes[0]))
      && (forall q :: Fs.Writable(fs1, q) == Fs.Writable(fs, q))
      && (forall i | 0 <= i < |notes| - 1 :: SaveFails(h, fs1, notes[1..][i]) == SaveFails(h, fs, notes[i + 1]))
      && (forall p | !Written(h, fs, notes, p) ::
            && !Written(h, fs1, notes[1..], p)
            && (p in fs1.files <==> p in fs.files)
            && (p in fs.files ==> fs1.files[p] == fs.files[p]))
  {
    var result := Notes.Save(h, fs, notes[0]);
    var fs1 := if result.Ok? then result.value else fs;
    assert forall q :: Fs.Writable(fs1, q) == Fs.Writable(fs, q);
    forall p | Written(h, fs1, notes[1..], p)
      ensures Written(h, fs, notes, p)
    {
      var i :| 0 <= i < |notes[1..]| && Notes.Payload(h, notes[1..][i]).Some?
        && Fs.Writable(fs1, Notes.PathOf(h, notes[1..][i])) && Notes.PathOf(h, notes[1..][i]) == p;
      assert notes[1..][i] == notes[i + 1];
    }
    if result.Ok? && Notes.Payload(h, notes[0]).Some? {
      assert Written(h, fs, notes, Notes.PathOf(h, notes[0]));
    }
  }

  /** Under distinct paths, every note whose save succeeds ends up with its
      encoded payload as the file at its path. */
  lemma SaveLoopWrites(h: Heap, fs: Fs.FileSystem, notes: seq<Note>, status: Result<(), Error>)
    requires h.Valid() && Live(h, notes)
    requires forall i, j | 0 <= i < j < |notes| :: Notes.PathOf(h, notes[i]) != Notes.PathOf(h, notes[j])
    ensures forall i | 0 <= i < |notes| && Notes.Payload(h, notes[i]).Some? && Fs.Writable(fs, Notes.PathOf(h, notes[i])) ::
      Notes.FileRecord(SaveLoop(h, fs, notes, status).0, Notes.PathOf(h, notes[i])) == Notes.Snapshot(h, notes[i])
  {
    forall i | 0 <= i < |notes| && Notes.Payload(h, notes[i]).Some? && Fs.Writable(fs, Notes.PathOf(h, notes[i]))
      ensures LastSave(h, fs, notes, i)
    {
    }
  }

  /** `NotesWall::save_all`: saves every note, even after a failure, and
      fails exactly when some note's save fails. Each note that saves
      leaves its payload readable at its path; no other file changes. */
  function SaveAll(h: Heap, fs: Fs.FileSystem, w: NotesWall): (r: (Fs.FileSystem, Result<(), Error>))
    requires Inv(h, w)
    ensures r.1.Err? <==> exists i | 0 <= i < |w.notes| :: !Fs.Writable(fs, Notes.PathOf(h, w.notes[i]))
    ensures r.1.Err? ==> r.1.error == FailedSerialization
    ensures forall i | 0 <= i < |w.notes| && Fs.Writable(fs, Notes.PathOf(h, w.notes[i])) ::
      Notes.FileRecord(r.0, Notes.PathOf(h, w.notes[i])) == Notes.Snapshot(h, w.notes[i])
    ensures forall p | !Written(h, fs, w.notes, p) ::
      (p in r.0.files <==> p in fs.files) && (p in fs.files ==> r.0.files[p] == fs.files[p])
    ensures r.0.dirs == fs.dirs && r.0.denied == fs.denied
    ensures fs.Valid() ==> r.0.Valid()
  {
    SaveLoopWrites(h, fs, w.notes, Ok(()));
    SaveLoop(h, fs, w.notes, Ok(()))
  }

  /* ---------- across operations ---------- */

  /** A saved note whose file name contains ".post" is found again, with
      the same contents, by `init` of any wall over its folder. */
  lemma SavedNoteIsFound(h: Heap, fs: Fs.FileSystem, n: Note, h2: Heap, w2: NotesWall)
    requires h.Valid() && h.HasNote(n) && fs.Valid() && h2.Valid()
    requires Notes.Payload(h, n).Some?
    requires Notes.Save(h, fs, n).Ok?
    requires InDir(Notes.PathOf(h, n), w2.folder) && w2.folder !in fs.denied
    requires Contains(Notes.PathOf(h, n)[|w2.folder|], MARKER)
    ensures var r := Init(h2, Notes.Save(h, fs, n).value, w2);
      && r.Ok?
      && exists j | 0 <= j < |r.value.1.notes| ::
           && Notes.PathOf(r.value.0, r.value.1.notes[j]) == Notes.PathOf(h, n)
           && Notes.Snapshot(r.value.0, r.value.1.notes[j]) == Notes.Snapshot(h, n)
  {
    var fs' := Notes.Save(h, fs, n).value;
    var p := Notes.PathOf(h, n);
    var name := p[|w2.folder|];
    SavedFileDiscovered(h, fs, n, w2.folder);
    InitFinds(h2, fs', w2, name);
  }

  /** After a save, the note's file name is among those `init` keeps, and
      its file holds the note's contents. */
  lemma SavedFileDiscovered(h: Heap, fs: Fs.FileSystem, n: Note, folder: Path)
    requires h.Valid() && h.HasNote(n) && fs.Valid()
    requires Notes.Payload(h, n).Some?
    requires Notes.Save(h, fs, n).Ok?
    requires InDir(Notes.PathOf(h, n), folder) && folder !in fs.denied
    requires Contains(Notes.PathOf(h, n)[|folder|], MARKER)
    ensures var fs', p := Notes.Save(h, fs, n).value, Notes.PathOf(h, n);
      && p == folder + [p[|folder|]]
      && Fs.ListDir(fs', folder).Some?
      && p[|folder|] in Discovered(fs', folder, Fs.ListDir(fs', folder).value)
      && Notes.FileRecord(fs', folder + [p[|folder|]]) == Notes.Snapshot(h, n)
  {
    var fs' := Notes.Save(h, fs, n).value;
    var p := Notes.PathOf(h, n);
    var name := p[|folder|];
    InDirSplit(p, folder);
    assert Notes.FileRecord(fs', p) == Notes.Snapshot(h, n);
    assert name in Fs.ListDir(fs', folder).value;
    assert Discoverable(fs', folder, name);
  }

  /** `init` finds every discoverable name: a note at `folder/name` holding
      what that file decodes to. */
  lemma InitFinds(h: Heap, fs: Fs.FileSystem, w: NotesWall, name: string)
    requires h.Valid()
    ensures var r := Init(h, fs, w);
      Fs.ListDir(fs, w.folder).Some? && name in Discovered(fs, w.folder, Fs.ListDir(fs, w.folder).value) ==>
      && r.Ok?
      && exists j | 0 <= j < |r.value.1.notes| ::
           && Notes.PathOf(r.value.0, r.value.1.notes[j]) == w.folder + [name]
           && Notes.Snapshot(r.value.0, r.value.1.notes[j]) == Notes.FileRecord(fs, w.folder + [name])
  {
    if Fs.ListDir(fs, w.folder).Some? {
      var found := Discovered(fs, w.folder, Fs.ListDir(fs, w.folder).value);
      if name in found {
        var j :| 0 <= j < |found| && found[j] == name;
        var r := Init(h, fs, w);
        assert Notes.PathOf(r.value.0, r.value.1.notes[j]) == w.folder + [name];
      }
    }
  }

  /** A note made by `create_note` and saved is found again by `init`
      after a restart: same path, empty title, its creation stamp, no
      todos, so its title reads as the creation stamp. */
  lemma CreatedNoteSurvivesRestart(h: Heap, fs: Fs.FileSystem, w: NotesWall, created: string, h2: Heap)
    requires h.Valid() && fs.Valid() && h2.Valid()
    requires IsStamp(created)
    requires Fs.Writable(fs, w.folder + [created + MARKER]) && w.folder !in fs.denied
    ensures var (h1, _, n) := CreateNote(h, w, created);
      Notes.Save(h1, fs, n).Ok? &&
      var r := Init(h2, Notes.Save(h1, fs, n).value, NotesWall(w.folder, []));
      && r.Ok?
      && exists j | 0 <= j < |r.value.1.notes| ::
           && Notes.PathOf(r.value.0, r.value.1.notes[j]) == w.folder + [created + MARKER]
           && Notes.Snapshot(r.value.0, r.value.1.notes[j]) == Some(NoteRecord("", created, []))
           && Notes.Title(r.value.0, r.value.1.notes[j]) == created
  {
    var (h1, w1, n) := CreateNote(h, w, created);
    StampFileName(created);
    var p := w.folder + [created + MARKER];
    assert p[|w.folder|] == created + MARKER;
    SavedNoteIsFound(h1, fs, n, h2, NotesWall(w.folder, []));
    var r := Init(h2, Notes.Save(h1, fs, n).value, NotesWall(w.folder, []));
    var j :| 0 <= j < |r.value.1.notes| && Notes.PathOf(r.value.0, r.value.1.notes[j]) == p
      && Notes.Snapshot(r.value.0, r.value.1.notes[j]) == Some(NoteRecord("", created, []));
    Notes.TitleOfSnapshot(r.value.0, r.value.1.notes[j]);
  }

}
